=== FILE: README.md ===
# ttstats match and rating core, in Dafny

This project models the core of ttstats, a Django application that records
table-tennis matches. A match is played between two sides and is made of
numbered games. The modelled parts are:

- **Scoring.** The game winner, each side's game count, the games-to-win
  threshold (`best_of // 2 + 1`) and the match winner recomputed on every
  save. It also covers the form checks on game scores (no ties, win by two
  from 10-10) and on players.
- **Confirmation.** Each side confirms the result. The "winner just set"
  edge is taken before a save. The completion handler then either confirms
  on the players' behalf or lists the players to notify.
- **Elo engine.** The K-factor, the two rounded deltas and the guarded,
  at-most-once application that updates both players and appends two
  history rows.
- **`recalculate_elo` command.** It selects the matches, orders them by
  date and creation time, resets everyone to 1500 and replays the matches.
- **Cache invalidation.** The keys each invalidation deletes, the
  leaderboard generation counter, and the cache-aside read of a player's
  pending-match count.
- **Row visibility.** Which matches, player profiles and games a user may
  see or edit.
- **View statistics.** Win/loss streaks, the player record, head-to-head
  game tallies and the participation checks of match creation.
- **The two request handlers that complete a match.** Adding a game and
  confirming a result.
- **Pure formatters.** The confirmation e-mail (score line, verdict, link,
  subject, recipient) and the admin display helpers.

Every operation is a pure function over immutable data. The database tables
are maps and sequences. The request's user is an explicit parameter. The
floating-point expected score `1 / (1 + 10 ** ((rb - ra) / 400))` is a
parameter `E`. The model assumes only what the code relies on: `0 < E < 1`
and `E(r, r) = 1/2`.

The repository contains two generations of the schema. The older one has
`player1`/`player2` with two boolean flags; the newer one has
`team1`/`team2` with one confirmation row per player. Both are represented
by a `Side` and a set of confirming players. Each side is an ordered roster,
and its first entry is what `.first()` returns. A singles match with flags
is the case of one player per side.

Points where the code differs from its own comments or tests, or where a
helper it calls lies outside the modelled files. The model follows the code
in each case except the last, where a literal reading would make the code
raise on every call and the model follows the tests instead:

- `Match.save` (models.py:103-115) only ever assigns a winner. A stored
  winner is never cleared, even if later games leave neither side at the
  threshold.
- `handle_match_completion` (signals.py:51-65) is commented as mailing
  "only verified users", but its condition checks an account with a
  non-empty e-mail address and a missing confirmation. The model notifies
  exactly those players, whether or not they are verified.
- `should_auto_confirm` is defined outside the modelled files. It is
  modelled as its tests pin it down (test_models.py:445-513, 703-743;
  test_signals.py:67-135, 217-277): the match has a winner, some
  participant has no confirmation row yet, and one side has no verified
  player. A match between unverified players is therefore confirmed by
  the system and nobody is mailed.
- `MatchManager.visible_to(None)` returns no matches (managers.py:13-15,
  commented "must see nothing"). `test_no_user_context_returns_all`
  (test_managers.py:40-43) expects all of them.
- `GameManager.visible_to` shows a regular user the games of a match only
  when their player is on both sides (managers.py:80-83). Its docstring
  (managers.py:65-67) says the games follow the parent match's visibility.
- The pending-match count filters on the stored `is_confirmed` column,
  which is maintained outside the modelled files. The model reads that
  column as "both sides confirmed", as test_cache.py:442-479 shows it
  behaving.
- Only `is_staff` exempts a user from the match-creation participation
  check (views.py:309, 354); `is_superuser` does not.
- The player page lists matches newest first (`order_by("-date_played")`,
  views.py:74), and the streak loop (views.py:95-131) runs in that order.
  The value it leaves as the "current streak" (comment at views.py:95) is
  therefore the run of the player's oldest decided matches. `Stats.Streaks`
  models the loop as written; `Stats.CurrentStreak` is the streak ending at
  the newest match (see "## Findings").
- `send_match_confirmation_email` decides the verdict with
  `player in match.winner.all()` (emails.py:30). `winner` is a single
  foreign key (to a team in the newer schema, to a player in the older
  one, models.py:77), and a model instance has no `.all()`. Taken
  literally, the line raises for every participant of a decided match.
  Every other reader of the winner goes through its roster
  (`match.winner.players.first()` at elo.py:107). test_emails.py:25-51
  expects a drafted "WON" or "LOST" e-mail. The model reads the call as
  "the player is on the winning side's roster", so a participant of a
  decided match with an account gets a drafted e-mail.

## Model

| member | source | states |
|---|---|---|
| `Scoring.DisplayName` | ttstats/pingpong/models.py:48-49 | A player is shown by nickname when one is set, by name otherwise |
| `Scoring.SaveGame` | ttstats/pingpong/models.py:143-150 | The side with the strictly higher score becomes the game's winner; a tie keeps the stored winner; no other field changes |
| `Scoring.WinsCountsWonGames` | ttstats/pingpong/models.py:96-101 | A side's score equals the number of games whose winner is that side |
| `Scoring.ScoresBoundedByGames` | ttstats/pingpong/models.py:96-101 | The two scores together never exceed the number of games |
| `Scoring.AppendGameWins` | ttstats/pingpong/models.py:143-153 | Adding a game raises the score of the side that won it by exactly one and leaves the other score alone |
| `Scoring.GamesToWin` | ttstats/pingpong/models.py:108 | The threshold is a strict majority of `best_of`, equal to (best_of + 1) / 2 for odd values, and no higher than needed |
| `Scoring.SaveMatch` | ttstats/pingpong/models.py:103-115 | On an existing match side one wins at the threshold, otherwise side two; below the threshold the stored winner is kept; a new match is saved unchanged; only the winner changes |
| `Scoring.AtMostOneSideReaches` | ttstats/pingpong/models.py:108-113 | With at most `best_of` games both sides cannot reach the threshold, so checking side one first never overrides side two |
| `Scoring.SaveMatchKeepsWinner` | ttstats/pingpong/models.py:110-113 | A save never clears a stored winner |
| `Scoring.SaveMatchWinnerJustified` | ttstats/pingpong/models.py:105-113 | A winner set by a save is a side that reached the threshold on an existing match |
| `Scoring.SaveMatchIdempotent` | ttstats/pingpong/models.py:103-115 | Saving twice gives the same match as saving once |
| `Scoring.CleanGameScores` | ttstats/pingpong/forms.py:63-77 | With both scores present, a tie is rejected, and at 10-10 or beyond a lead under two is rejected; every other pair (and any missing score) passes |
| `Scoring.CleanScoresDecideGame` | ttstats/pingpong/forms.py:68-70 | Every score pair that passes validation gives the game a winner: the side with more points |
| `Scoring.CleanMatchPlayers` | ttstats/pingpong/forms.py:38-48 | Two given players are rejected exactly when they are the same player |
| `Scoring.EditMatch` | ttstats/pingpong/forms.py:51-55 | Editing a match can change only its location and notes; rosters, games, winner and confirmations stay |
| `Scoring.NextGameNumber` | ttstats/pingpong/views.py:229-238 | The next number is 1 for a match without games, otherwise one more than the highest existing number, so it is above every existing number |
| `Confirmation.UnverifiableSideIsConfirmed` | ttstats/pingpong/tests/test_models.py:266-356 | A side with no verified member counts as confirmed: only verified members are waited for |
| `Confirmation.NoAutoConfirmWhenAllVerified` | ttstats/pingpong/tests/test_models.py:445-513 | When every player is verified, auto-confirmation never fires |
| `Confirmation.NoAutoConfirmWhenEveryoneConfirmed` | ttstats/pingpong/tests/test_models.py:703-727 | A match every participant has already confirmed is never auto-confirmed |
| `Confirmation.UnverifiedPlayersAutoConfirmed` | ttstats/pingpong/tests/test_signals.py:67-135 | When a match between unverified players gets its winner, every participant is confirmed and nobody is mailed, even players with addresses |
| `Confirmation.WinnerJustSet` | ttstats/pingpong/signals.py:19-32 | The edge holds exactly when the match exists, its stored row has no winner, and the instance being saved has one |
| `Confirmation.ToNotify` | ttstats/pingpong/signals.py:51-65 | The notified players are exactly the participants with a non-empty address who have not confirmed |
| `Confirmation.ToNotifyNoDuplicates` | ttstats/pingpong/signals.py:51-65 | From a roster without repeats, nobody is notified twice |
| `Confirmation.ConfirmEveryone` | ttstats/pingpong/signals.py:46-49 | Auto-confirmation adds every participant's confirmation and changes nothing else |
| `Confirmation.HandleCompletion` | ttstats/pingpong/signals.py:35-65 | Nothing happens without the edge or a winner; auto-confirmation notifies nobody; otherwise the match is unchanged and the notification list is as in `ToNotify` |
| `Confirmation.AutoConfirmConfirms` | ttstats/pingpong/signals.py:46-49 | After auto-confirmation the match counts as confirmed |
| `Confirmation.HandleCompletionOnlyAdds` | ttstats/pingpong/signals.py:35-65 | The handler only ever adds confirmations and changes no other field |
| `Confirmation.NotifiedOnce` | ttstats/pingpong/signals.py:51-65 | With rosters without repeats, each player is notified at most once per completion |
| `Elo.KFactor` | ttstats/pingpong/elo.py:11-43 | K is 32 times the type, best-of and experience multipliers, always between 28.8 and 79.2, e.g. 32, 48, 28.8, 35.2 and 79.2; a best-of other than 3, 5 or 7 takes the default multiplier 1.0 |
| `Elo.NewPlayerBoost` | ttstats/pingpong/elo.py:36-42 | In the first twenty rated matches K is 1.5 times the veteran value |
| `Elo.Deltas` | ttstats/pingpong/elo.py:110-112 | Each player's K-factor uses that player's own rated-match count |
| `Elo.Actual1` | ttstats/pingpong/elo.py:106-107 | Player one's actual score is 1 exactly when the winning side's first player is player one and 0 otherwise: always 1 when side one wins, and 0 when side two wins unless one player leads both sides |
| `Elo.WinnerGainsLoserLoses` | ttstats/pingpong/elo.py:102-116 | With an expected score strictly between 0 and 1, the winner's delta is non-negative and the loser's non-positive |
| `Elo.ComplementDelta` | ttstats/pingpong/elo.py:104-116 | Complementing both the actual and the expected score negates the rounded delta |
| `Elo.EqualKZeroSum` | ttstats/pingpong/elo.py:104-116 | With equal K-factors the two deltas cancel exactly |
| `Elo.EvenMatchDelta` | ttstats/pingpong/elo.py:102-115 | Between equal ratings, the winner's change is K/2 rounded |
| `Elo.Guard` | ttstats/pingpong/elo.py:68-89 | The update is skipped for no winner, then not confirmed, then already rated, then doubles, in that order |
| `Elo.Bump` | ttstats/pingpong/elo.py:122-131 | The rating moves by the delta, the peak becomes the larger of the old peak and the new rating, and the rated count grows by one |
| `Elo.ApplyElo` | ttstats/pingpong/elo.py:51-150 | A skipped match changes nothing. Otherwise exactly two history rows are appended for the two first players. Each row holds the player's rating before the match, that player's rounded delta and K-factor, and new = old + change. The second row's new rating is the player's stored rating afterwards, and so is the first row's when the two players differ. Only those two players change |
| `Elo.ApplyEloUpdatesPlayers` | ttstats/pingpong/elo.py:122-131 | Each of two distinct first players gets rating + delta, a raised peak and one more rated match |
| `Elo.ApplyEloPreservesSum` | ttstats/pingpong/elo.py:114-131 | With equal K-factors a rated match preserves the sum of the two ratings |
| `Elo.ApplyEloKeepsProfiles` | ttstats/pingpong/elo.py:126-131 | Only the Elo fields of players are written |
| `Elo.ApplyEloKeepsPeaks` | ttstats/pingpong/elo.py:123-130 | If every peak is at least the rating before, it is after |
| `Elo.ApplyEloIdempotent` | ttstats/pingpong/elo.py:81-84 | After one application the guard blocks the match, so applying again changes nothing |
| `Rounding.RoundHalfEven` | ttstats/pingpong/elo.py:115-116 | Rounds to within one half, keeps the sign, and breaks exact halves to the even neighbour |
| `Rounding.RoundNegation` | ttstats/pingpong/elo.py:115-116 | Rounding commutes with negation |
| `Replay.Select` | ttstats/pingpong/management/commands/recalculate_elo.py:31-40 | Exactly the matches with a winner, both sides confirmed and not doubles are selected, each at most as often as stored |
| `Replay.Sort` | ttstats/pingpong/management/commands/recalculate_elo.py:36 | The result is a permutation of the input in ascending (date played, creation time) order |
| `Replay.ReplayOrder` | ttstats/pingpong/management/commands/recalculate_elo.py:31-40 | The replay order is chronological and contains exactly the selected matches |
| `Replay.ReplayOrderDistinct` | ttstats/pingpong/management/commands/recalculate_elo.py:31-40 | Distinct match ids remain distinct after selection and ordering |
| `Replay.Reset` | ttstats/pingpong/management/commands/recalculate_elo.py:48-58 | Every player is reset to rating 1500, peak 1500 and no rated matches, the history is emptied, and nothing else changes |
| `Replay.Fold` | ttstats/pingpong/management/commands/recalculate_elo.py:61-64 | Replaying changes only the players' Elo fields |
| `Replay.Recalculate` | ttstats/pingpong/management/commands/recalculate_elo.py:25-79 | The reported count is the number of selected matches; a dry run changes nothing |
| `Replay.FoldReplaysAll` | ttstats/pingpong/management/commands/recalculate_elo.py:57-64 | Replaying onto an empty history never trips the "already rated" guard: two rows per match in order, and each rated count grows by that player's appearances |
| `Replay.RecalculateReplaysEverything` | ttstats/pingpong/management/commands/recalculate_elo.py:46-64 | After a run the history has two rows per selected match in replay order, each rated count equals the player's appearances, and every peak is at least the rating |
| `Replay.RecalculateIdempotent` | ttstats/pingpong/management/commands/recalculate_elo.py:46-64 | Running the command twice gives the same ratings and history as running it once |
| `Text.PrefixedNatInjective` | ttstats/pingpong/cache_utils.py:23-24 | A key made of a fixed prefix followed by an id determines the id |
| `Cache.MatchKeys` | ttstats/pingpong/cache_utils.py:14-43 | The delete list holds both per-player keys of every participant, the head-to-head key for singles, both team keys and the three dashboard keys, and nothing else: a match that is not singles deletes no head-to-head key at all |
| `Cache.GenerationNeverDeleted` | ttstats/pingpong/cache_utils.py:14-61 | Neither delete list contains the generation counter |
| `Cache.GenerationNotAMatchKey` | ttstats/pingpong/cache_utils.py:14-43 | The match delete list never holds the generation counter |
| `Cache.GenerationNotAPlayerKey` | ttstats/pingpong/cache_utils.py:52-61 | The player delete list never holds the generation counter |
| `Cache.H2HKeyIdentifiesPair` | ttstats/pingpong/cache_utils.py:26-32 | Two head-to-head keys are equal exactly when they name the same two players, in either order |
| `Cache.MatchKeysIgnoreSideOrder` | ttstats/pingpong/cache_utils.py:16-43 | Swapping the two sides of a match deletes the same keys |
| `Cache.OtherPlayersKeysKept` | ttstats/pingpong/cache_utils.py:21-24 | The per-player keys of someone who did not play are not in a match's delete list |
| `Cache.Delete` | ttstats/pingpong/cache_utils.py:48 | The listed keys are gone and every other key keeps its value |
| `Cache.BumpGeneration` | ttstats/pingpong/cache_utils.py:70-75 | An absent generation becomes 1 and n becomes n + 1; a non-numeric value raises; nothing else changes |
| `Cache.InvalidateMatch` | ttstats/pingpong/cache_utils.py:9-49 | The match's keys are all absent afterwards, the generation is one higher, and every other key keeps its value |
| `Cache.InvalidatePlayer` | ttstats/pingpong/cache_utils.py:52-67 | The player's two keys and the player total are absent afterwards, the generation is one higher, and every other key keeps its value |
| `Cache.InvalidateAll` | ttstats/pingpong/cache_utils.py:78-80 | Clearing leaves no key |
| `Cache.InvalidationRaisesGeneration` | ttstats/pingpong/cache_utils.py:45-75 | Every match or player invalidation strictly raises the generation |
| `Cache.MatchInvalidationKeepsOthers` | ttstats/pingpong/cache_utils.py:16-48 | A match invalidation keeps the cached entries of every player who did not play |
| `Cache.PendingIds` | ttstats/pingpong/context_processors.py:24-28 | The counted ids are exactly those of the player's matches that have a winner and are unconfirmed, each once |
| `Cache.PendingCount` | ttstats/pingpong/context_processors.py:24-28 | The count is the number of distinct ids of the player's matches that have a winner and are unconfirmed; it is zero exactly when no match is pending |
| `Cache.PendingRead` | ttstats/pingpong/context_processors.py:8-33 | Anonymous users and users without a player see 0; a hit returns the cached value unchanged; a miss computes the count and stores it under the player's key |
| `Cache.PendingReadStable` | ttstats/pingpong/context_processors.py:16-31 | A second read with nothing changed in between returns the same value and store |
| `Cache.InvalidationForcesRecount` | ttstats/pingpong/context_processors.py:17-31 | After a match is invalidated, each of its players' next read recomputes the count |
| `Visibility.MatchVisible` | ttstats/pingpong/managers.py:12-28 | No user or an anonymous user sees nothing; staff and superusers see everything; otherwise a user sees a match exactly when their player is on it |
| `Visibility.VisibleMatches` | ttstats/pingpong/managers.py:12-28 | The result is a subset of all matches, filtered by `MatchVisible` |
| `Visibility.PrivilegedSeesSuperset` | ttstats/pingpong/managers.py:18-19 | Staff see every match and so a superset of any user's view |
| `Visibility.RegularUserSeesOwnMatches` | ttstats/pingpong/managers.py:21-28 | A regular user sees exactly the matches with their player on either side |
| `Visibility.EditablePlayers` | ttstats/pingpong/managers.py:47-61 | No user or an anonymous user can edit nothing, staff can edit every player, and others only the players linked to their account |
| `Visibility.RegularUserEditsOwnProfileOnly` | ttstats/pingpong/managers.py:57-59 | With one player per account, a regular user can edit at most one profile |
| `Visibility.GamesVisible` | ttstats/pingpong/managers.py:69-83 | Without a user the manager raises; anonymous users see none; staff see all; a regular user needs their player on both sides |
| `Visibility.VisibleGamesHaveVisibleMatch` | ttstats/pingpong/managers.py:64-83 | Visible games always belong to a visible match |
| `Visibility.DisjointRostersHideGames` | ttstats/pingpong/managers.py:80-83 | With disjoint rosters a regular player sees the match but none of its games |
| `Stats.OutcomeFor` | ttstats/pingpong/views.py:103-115 | A match is won when the winning side has the player, undecided without a winner, and lost otherwise |
| `Stats.MaxRunIsLongest` | ttstats/pingpong/views.py:98-131 | The longest-run measure bounds the final run of every prefix and equals that of some prefix |
| `Stats.Streaks` | ttstats/pingpong/views.py:95-131 | Over the matches in listing order, which is newest first (views.py:74): the streak kind is the last decided outcome in that order, i.e. the OLDEST decided match, and the current streak is the run ending there; the longest streaks are the longest win and loss runs; matches without a winner are skipped without breaking a run |
| `Stats.FirstDecided` | ttstats/pingpong/views.py:73-74 | The most recent decided outcome of a newest-first list; none exactly when no match has a winner |
| `Stats.Leading` | ttstats/pingpong/views.py:95-131 | The length of the run at the front of a newest-first list: zero unless that outcome is the most recent decided one, then at least one |
| `Stats.ReverseSwapsEnds` | ttstats/pingpong/views.py:73-131 | Running over the list backwards turns the last decided outcome into the first and the final run into the leading run |
| `Stats.ListedStreakIsOldestRun` | ttstats/pingpong/views.py:73-131 | With win, win, loss listed newest first, the loop reports a current streak of one loss, while the most recent run is two wins |
| `Stats.CurrentStreak` | ttstats/pingpong/views.py:95-131 | The corrected current streak: the most recent decided outcome and the length of the run it ends |
| `Stats.PlayerRecord` | ttstats/pingpong/views.py:91-93 | Total is the number of matches and wins the matches won; losses are total minus wins, which includes matches without a winner; the win rate is a percentage, 0 without matches |
| `Stats.UndecidedCountsAsLoss` | ttstats/pingpong/views.py:91-93 | One confirmed match without a winner is recorded as one loss although no match was lost |
| `Stats.DecidedRecord` | ttstats/pingpong/views.py:115 | Losses count only matches won by the other side; wins, losses and undecided matches add up to the total |
| `Stats.RecordsAgreeWhenAllDecided` | ttstats/pingpong/views.py:91-115 | The two records agree exactly when every match has a winner |
| `Stats.WinRate` | ttstats/pingpong/views.py:139 | The win rate is wins / total * 100, between 0 and 100, and 0 without matches |
| `Stats.Orient` | ttstats/pingpong/views.py:504-510 | A game's scores are read from the requested first player's side |
| `Stats.TallyGames` | ttstats/pingpong/views.py:501-548 | Every game is credited to exactly one player (ties to the second); close and dominant counts never exceed the total |
| `Stats.TallyMargins` | ttstats/pingpong/views.py:557-565 | Each player's largest margin bounds every game they won and is attained by one, or is 0 |
| `Stats.TallyCountsWins` | ttstats/pingpong/views.py:532-536 | The first player's game wins are the games with a positive difference |
| `Stats.TallyCountsClose` | ttstats/pingpong/views.py:538-540 | Close games are exactly the games decided by at most two points |
| `Stats.TallyCountsP1Dominant` | ttstats/pingpong/views.py:542-544 | The first player's dominant games are exactly those they won by five points or more |
| `Stats.TallyCountsP2Dominant` | ttstats/pingpong/views.py:542-546 | The second player's dominant games are exactly those the first player lost by five points or more |
| `Stats.TallySwap` | ttstats/pingpong/views.py:504-546 | Asking for the pair the other way round exchanges the two players' wins, dominant games and margins when no game is tied |
| `Stats.RecentTotal` | ttstats/pingpong/views.py:658 | The form guide covers five matches, or all of them when there are fewer |
| `Stats.CheckMatchCreate` | ttstats/pingpong/views.py:340-376 | The same player twice is refused; a user who is not staff must have a player, play in the match, and be player 1 |
| `Emails.ScoreLineInjective` | ttstats/pingpong/emails.py:18-43 | A score line determines its two numbers |
| `Emails.ConfirmUrlInjective` | ttstats/pingpong/emails.py:45-48 | Different matches get different confirmation links |
| `Emails.ConfirmationEmail` | ttstats/pingpong/emails.py:5-50 | A player on neither side gets nothing; no winner or no account raises; otherwise the score puts the player's side first, the result is "won" exactly when the player is on the winning side's roster (emails.py:30 read as that roster, as the tests expect), the link uses the configured or default site, and the only recipient is the player's address |
| `Emails.SubjectAnnouncesCompletion` | ttstats/pingpong/emails.py:29-50 | The subject announces a completed match, with the celebration emoji exactly for a win |
| `Emails.OpponentsSeeMirroredScores` | ttstats/pingpong/emails.py:18-43 | Two opponents get mirrored score lines, and exactly one of them has won |
| `Admin.AddressPreview` | ttstats/pingpong/admin.py:483-489 | An empty address stays empty, one over 50 characters is cut to 50 followed by "...", and shorter ones are unchanged |
| `Admin.AddressPreviewIdempotent` | ttstats/pingpong/admin.py:483-489 | Previewing a preview changes nothing |
| `Admin.PasskeyCount` | ttstats/pingpong/admin.py:237-240 | "1 passkey" for one, and a plural label ending in "s" otherwise |
| `Admin.PasskeyCountInjective` | ttstats/pingpong/admin.py:237-240 | The label determines the count |
| `Admin.TeamWinRate` | ttstats/pingpong/admin.py:420-449 | No matches gives 0%; otherwise the percentage of matches won, between 0 and 100 |
| `Admin.DaysUntil` | ttstats/pingpong/admin.py:872-894 | No date gives "N/A"; the future gives "In N day(s)", today gives "Today", and the past gives the absolute number of days followed by "ago" |
| `Admin.DaysUntilSingular` | ttstats/pingpong/admin.py:879-892 | The label is singular exactly one day away in either direction |
| `Admin.DaysSinceSent` | ttstats/pingpong/admin.py:321-329 | "Never sent" exactly without a timestamp; otherwise the signed day count followed by "days ago" |
| `Admin.HasWinnerFilter` | ttstats/pingpong/admin.py:145-150 | "yes" keeps the matches with a winner, "no" those without, and any other value changes nothing |
| `Admin.FilterPartitions` | ttstats/pingpong/admin.py:145-150 | The "yes" and "no" lists together are as long as the unfiltered list |
| `Pipeline.SaveWithSignals` | ttstats/pingpong/signals.py:19-65 | A save changes only the winner and the confirmations, never removes a confirmation or a winner, and does nothing more when a winner was already stored |
| `Pipeline.ChosenNumber` | ttstats/pingpong/views.py:233-238 | An entered number is kept; with none (or 0) entered the next number is one that is not taken |
| `Pipeline.RecordGame` | ttstats/pingpong/views.py:213-241 | A decided match takes no games; invalid scores are refused; a recorded game has a fresh number, the entered scores, and the winner with more points, and is appended to the games |
| `Pipeline.RecordGameKeepsNumbersDistinct` | ttstats/pingpong/models.py:136-138 | Recording a game keeps game numbers unique within the match |
| `Pipeline.DecidingGameCompletesMatch` | ttstats/pingpong/models.py:143-153 | The game that decides a match runs the completion step: the match is then confirmed by the system or the unconfirmed reachable players are notified. When no player is verified and someone has not confirmed, everyone is confirmed and nobody is notified |
| `Pipeline.ConfirmMatch` | ttstats/pingpong/views.py:727-754 | A participant who has not confirmed adds their own confirmation only; a repeat confirmation, a non-participant or a user without a player changes nothing |
| `Pipeline.LastConfirmationConfirms` | ttstats/pingpong/views.py:738-745 | The last outstanding verified player's confirmation makes the match confirmed |

## Left out

- The expected score `1 / (1 + 10 ** ((rb - ra) / 400))` is floating point. It is the parameter `E`, and only `0 < E < 1` and `E(r, r) = 1/2` are assumed about it.
- Rounding.RoundHalfEven: rounds the exact product of K and the score difference, not its binary floating-point approximation, so a product within one ulp of a half may round differently in the program.
- Elo.KFactor: exact rationals stand in for the floating-point product; 28.8, 35.2 and 79.2 are exact here and approximate in the program.
- The signals in this snapshot do not call `update_player_elo`, so no step from confirmation to rating is modelled. Elo is applied by `ApplyElo` and by the replay.
- `send_mail`, the message and HTML bodies of e-mails, `print` and `logging` are I/O. A notification is the id of the player in the output list.
- The completion handler calls the e-mail helper with three arguments, while the helper takes two. Only who is notified is modelled, not the call.
- Querysets, `refresh_from_db`, `transaction.atomic` and database constraint enforcement are ORM machinery. Tables are maps and sequences. A duplicate game number is a refusal.
- Concurrent confirmations and the thread-local current user are out of scope. The user is passed explicitly.
- Cache expiry times are not represented. A cached value of `None`, which the read treats as a miss, is not representable.
- Migrations, the `cache_control` and `warm_cache` commands, and `get_cache_stats` are one-off or diagnostic plumbing.
- The user-profile creation signal and the authentication, registration, e-mail verification and passkey views are outside the match core.
- Settings, URL routing, app configuration and the non-helper admin configuration are configuration only.
- The views' averages, cumulative charts, recent-win counts and JSON chart payloads are floating-point or presentation.
- The views' flash messages and redirects are presentation. Each refusal is a distinct error value.
- The HTML markup around admin labels and the `%.1f` rendering of the team win rate are presentation.
- The "Error" and "N/A" exception branches of `days_since_sent` and `days_until` are for malformed dates. The day difference is a parameter, because it depends on the clock.
- The passkey count and the team's match counts come from the database and are parameters.
- Stats.CheckMatchCreate: requires a logged-in user, as the view's login requirement guarantees.
- Pipeline.ConfirmMatch: requires a logged-in user and a stored match, as `login_required` and the 404 lookup guarantee.
- Pipeline.RecordGame: requires a stored match, which the view loads by primary key.
- Elo.ApplyElo: requires that both first players exist in the roster when the guards pass. In the program a side without players makes `.first()` return nothing and the update raises.
- Replay.Recalculate: requires distinct match ids, as primary keys are, and first players on every selected match, as `Elo.ApplyElo` does.

## Findings

| source | as written | input that shows it | evidently intended | confidence | as-written member | corrected member |
|---|---|---|---|---|---|---|
| ttstats/pingpong/views.py:91-93 | `losses = total_matches - wins`, over all confirmed matches of the player | One confirmed match that has no winner. The match counts as confirmed without a winner, so it is listed; it is not won, and it becomes one loss | A loss is a match with a winner other than the player, as the streak loop's comment at line 115 says; undecided matches are neither won nor lost | medium, not executed | `Stats.UndecidedCountsAsLoss` | `Stats.DecidedRecord` |
| ttstats/pingpong/views.py:73-131 | The streak loop runs over the matches newest first, so the "current streak" it keeps is the final run in that order | Listed newest first: win, win, loss. The page shows a current streak of one loss just after two wins | The current streak is the run ending at the most recent decided match, as the comment "Calculate current streak" at line 95 says; the longest streaks are unaffected | medium, not executed | `Stats.ListedStreakIsOldestRun` | `Stats.CurrentStreak` |

=== FILE: admin.dfy ===
/**
 * The display helpers of the admin site (admin.py): the truncated address
 * preview, the passkey count label, the team win rate, the day
 * classification of scheduled matches and verification e-mails, and the
 * "has winner" list filter. Only the text content of each label is
 * modelled; the HTML markup around it is not.
 */
module Admin {
  import opened Wrappers
  import opened Text
  import opened Domain

  const PreviewLength: nat := 50
  const Ellipsis: string := "..."

  /** `LocationAdmin.address_preview`: empty stays empty, long addresses are cut to 50 characters and marked */
  function AddressPreview(address: string): (r: string)
    ensures |r| <= PreviewLength + |Ellipsis|
    ensures address == "" ==> r == ""
    ensures |address| <= PreviewLength ==> r == address
    ensures |address| > PreviewLength ==> |r| == PreviewLength + |Ellipsis| && r[..PreviewLength] == address[..PreviewLength] && r[PreviewLength..] == Ellipsis
  {
    if address == "" then ""
    else if |address| > PreviewLength then address[..PreviewLength] + Ellipsis
    else address
  }

  /** Previewing a preview changes nothing: a cut address is cut at the same place again */
  lemma AddressPreviewIdempotent(address: string)
    ensures AddressPreview(AddressPreview(address)) == AddressPreview(address)
  {
    var r := AddressPreview(address);
    if |address| > PreviewLength {
      assert r[..PreviewLength] + Ellipsis == r;
    }
  }

  /** `UserAdmin.passkey_count`: "N passkey", plural unless N is one */
  function PasskeyCount(count: nat): (r: string)
    ensures count == 1 ==> r == "1 passkey"
    ensures |r| > 0
    ensures r[|r| - 1] == 's' <==> count != 1
  {
    NatToString(count) + " passkey" + PluralS(count)
  }

  /** The label determines the count */
  lemma PasskeyCountInjective(a: nat, b: nat)
    requires PasskeyCount(a) == PasskeyCount(b)
    ensures a == b
  {
    var x := PasskeyCount(a);
    assert x == NatToString(a) + (" passkey" + PluralS(a));
    assert x == NatToString(b) + (" passkey" + PluralS(b));
    assert PluralS(a) == PluralS(b) by {
      assert (x[|x| - 1] == 's') == (a != 1) == (b != 1);
    }
    var suffix := " passkey" + PluralS(a);
    assert NatToString(a) == x[..|x| - |suffix|] == NatToString(b);
    NatToStringInjective(a, b);
  }

  /** A team's win rate: no figure to compute without matches, otherwise the percentage of matches won */
  datatype Rate = ZeroPercent | Percent(value: real)

  /** `TeamAdmin.win_rate`, from the matches played as side one and as side two */
  function TeamWinRate(asSide1: nat, asSide2: nat, won: nat): (r: Rate)
    ensures r == ZeroPercent <==> asSide1 + asSide2 == 0
    ensures r.Percent? ==> r.value * ((asSide1 + asSide2) as real) == (won as real) * 100.0
    ensures r.Percent? && won <= asSide1 + asSide2 ==> 0.0 <= r.value <= 100.0
  {
    var total := asSide1 + asSide2;
    if total == 0 then ZeroPercent else Percent((won as real) / (total as real) * 100.0)
  }

  /** `"day"` followed by the plural suffix */
  function Days(n: int): string {
    "day" + PluralS(n)
  }

  /**
   * `ScheduledMatchAdmin.days_until`, from the difference in days between
   * the scheduled date and today: "N/A" without a date, "In N day(s)" in
   * the future, "Today", and "N day(s) ago" in the past.
   */
  function DaysUntil(days: Option<int>): (r: string)
    ensures days.None? ==> r == "N/A"
    ensures days.Some? && days.value > 0 ==> r == "In " + NatToString(days.value) + " " + Days(days.value)
    ensures days == Some(0) ==> r == "Today"
    ensures days.Some? && days.value < 0 ==> r == NatToString(-days.value) + " " + Days(-days.value) + " ago"
  {
    match days
    case None => "N/A"
    case Some(d) =>
      if d > 0 then "In " + NatToString(d) + " " + Days(d)
      else if d == 0 then "Today"
      else NatToString(-d) + " " + Days(-d) + " ago"
  }

  /** The label is singular exactly one day away in either direction */
  lemma DaysUntilSingular(d: int)
    requires d != 0
    ensures d == 1 ==> DaysUntil(Some(d)) == "In 1 day"
    ensures d == -1 ==> DaysUntil(Some(d)) == "1 day ago"
    ensures d > 1 ==> DaysUntil(Some(d))[|DaysUntil(Some(d))| - 1] == 's'
  {
    assert NatToString(1) == "1";
  }

  /** `EmailVerificationAdmin.days_since_sent`: "N days ago" (always plural, sign kept), or "Never sent" */
  function DaysSinceSent(days: Option<int>): (r: string)
    ensures days.None? <==> r == "Never sent"
    ensures days.Some? ==> r == IntToString(days.value) + " days ago"
  {
    match days
    case None => "Never sent"
    case Some(d) =>
      var s := IntToString(d) + " days ago";
      assert s[0] != "Never sent"[0];
      s
  }

  /** Only `"yes"` and `"no"` filter: the matches with a winner, or those without one */
  function HasWinnerFilter(value: Option<string>, ms: seq<Match>): (r: seq<Match>)
    ensures value != Some("yes") && value != Some("no") ==> r == ms
    ensures value == Some("yes") ==> forall x :: x in r <==> x in ms && x.winner.Some?
    ensures value == Some("no") ==> forall x :: x in r <==> x in ms && x.winner.None?
    ensures |r| <= |ms|
  {
    if value == Some("yes") then KeepDecided(ms, true)
    else if value == Some("no") then KeepDecided(ms, false)
    else ms
  }

  /** The matches whose winner is present (`decided`) or absent, in the same order */
  function KeepDecided(ms: seq<Match>, decided: bool): (r: seq<Match>)
    ensures forall x :: x in r <==> x in ms && x.winner.Some? == decided
    ensures |r| <= |ms|
    decreases |ms|
  {
    if |ms| == 0 then []
    else
      var init := ms[..|ms| - 1];
      var x := ms[|ms| - 1];
      assert ms == init + [x];
      if x.winner.Some? == decided then KeepDecided(init, decided) + [x] else KeepDecided(init, decided)
  }

  /** The two filtered lists split the unfiltered one: every match is complete or in progress */
  lemma {:induction false} FilterPartitions(ms: seq<Match>)
    ensures |HasWinnerFilter(Some("yes"), ms)| + |HasWinnerFilter(Some("no"), ms)| == |ms|
    decreases |ms|
  {
    if |ms| > 0 {
      FilterPartitions(ms[..|ms| - 1]);
    }
  }
}

=== FILE: cache.dfy ===
/**
 * The key-value cache in front of the statistics pages (cache_utils.py) and
 * the cache-aside read of a player's pending-match count
 * (context_processors.py). The store is a finite map from key to value;
 * expiry times are not represented.
 */
module Cache {
  import opened Wrappers
  import opened Text
  import opened Domain
  import opened Confirmation

  /** A cached value: a number, or anything else (a rendered page, a list) */
  datatype Value = Num(n: int) | Other(text: string)

  type Store = map<string, Value>

  // ---------------------------------------------------------------------
  // Keys
  // ---------------------------------------------------------------------

  const Generation: string := "leaderboard_generation"
  const TotalPlayers: string := "dashboard_total_players"
  const DashboardKeys: set<string> := {TotalPlayers, "dashboard_total_matches", "dashboard_recent_matches"}

  function PlayerStatsKey(p: PlayerId): string {
    "player_stats_" + NatToString(p)
  }

  function PendingKey(p: PlayerId): string {
    "pending_matches_" + NatToString(p)
  }

  function TeamStatsKey(t: TeamId): string {
    "team_stats_" + NatToString(t)
  }

  function Min(a: nat, b: nat): nat {
    if a <= b then a else b
  }

  function Max(a: nat, b: nat): nat {
    if a <= b then b else a
  }

  /** `h2h_{min}_{max}`: the smaller id first, whichever side each player is on */
  function H2HKey(a: PlayerId, b: PlayerId): string {
    "h2h_" + NatToString(Min(a, b)) + "_" + NatToString(Max(a, b))
  }

  /** Both sides have exactly one player: the match has a head-to-head entry */
  predicate Singles(m: Match) {
    |m.side1.players| == 1 && |m.side2.players| == 1
  }

  /** The keys of a match other than its head-to-head key */
  function NonH2HKeys(m: Match): set<string> {
    var ps := m.Participants();
    (set p | p in ps :: PlayerStatsKey(p))
    + (set p | p in ps :: PendingKey(p))
    + {TeamStatsKey(m.side1.id), TeamStatsKey(m.side2.id)}
    + DashboardKeys
  }

  /** A head-to-head key starts with 'h' and none of the other keys does, so it is never among them */
  lemma {:induction false} NoH2HAmongOthers(m: Match)
    ensures forall a, b :: H2HKey(a, b) !in NonH2HKeys(m)
  {
    forall a, b
      ensures H2HKey(a, b) !in NonH2HKeys(m)
    {
      var k := H2HKey(a, b);
      assert k[0] == 'h';
      forall q
        ensures k != PlayerStatsKey(q) && k != PendingKey(q)
      {
        assert PlayerStatsKey(q)[0] == 'p' && PendingKey(q)[0] == 'p';
      }
      assert TeamStatsKey(m.side1.id)[0] == 't' && TeamStatsKey(m.side2.id)[0] == 't';
    }
  }

  /**
   * The keys `invalidate_match_caches` deletes: both per-player keys of every
   * participant, the head-to-head key of a singles match and of no other
   * match, both team keys and the dashboard keys, and nothing else.
   */
  function MatchKeys(m: Match): (ks: set<string>)
    ensures forall p :: m.Involves(p) ==> PlayerStatsKey(p) in ks && PendingKey(p) in ks
    ensures Singles(m) ==> H2HKey(m.side1.players[0], m.side2.players[0]) in ks
    ensures !Singles(m) ==> forall a, b :: H2HKey(a, b) !in ks
    ensures TeamStatsKey(m.side1.id) in ks && TeamStatsKey(m.side2.id) in ks
    ensures DashboardKeys <= ks
    ensures forall k :: k in ks ==>
      || (exists p :: p in m.Participants() && (k == PlayerStatsKey(p) || k == PendingKey(p)))
      || (Singles(m) && k == H2HKey(m.side1.players[0], m.side2.players[0]))
      || k == TeamStatsKey(m.side1.id) || k == TeamStatsKey(m.side2.id)
      || k in DashboardKeys
  {
    NoH2HAmongOthers(m);
    NonH2HKeys(m) + (if Singles(m) then {H2HKey(m.side1.players[0], m.side2.players[0])} else {})
  }

  /** The keys `invalidate_player_caches` deletes */
  function PlayerKeys(p: PlayerId): set<string> {
    {PlayerStatsKey(p), PendingKey(p), TotalPlayers}
  }

  // ---------------------------------------------------------------------
  // Key facts
  // ---------------------------------------------------------------------

  /** The match delete list never holds the generation counter */
  lemma GenerationNotAMatchKey(m: Match)
    ensures Generation !in MatchKeys(m)
  {
    forall k | k in MatchKeys(m)
      ensures k[0] != 'l'
    {
      var ps := m.Participants();
      if q :| q in ps && k == PlayerStatsKey(q) {
        assert k[0] == 'p';
      } else if q :| q in ps && k == PendingKey(q) {
        assert k[0] == 'p';
      } else if k == TeamStatsKey(m.side1.id) || k == TeamStatsKey(m.side2.id) {
        assert k[0] == 't';
      } else if Singles(m) && k == H2HKey(m.side1.players[0], m.side2.players[0]) {
        assert k[0] == 'h';
      } else {
        assert k in DashboardKeys;
      }
    }
    assert Generation[0] == 'l';
  }

  /** The player delete list never holds the generation counter */
  lemma GenerationNotAPlayerKey(p: PlayerId)
    ensures Generation !in PlayerKeys(p)
  {
    assert PlayerStatsKey(p)[0] == 'p' && PendingKey(p)[0] == 'p';
    assert Generation[0] == 'l';
  }

  /** No deleted key is the generation counter: the delete lists never undo the bump */
  lemma GenerationNeverDeleted(m: Match, p: PlayerId)
    ensures Generation !in MatchKeys(m)
    ensures Generation !in PlayerKeys(p)
  {
    GenerationNotAMatchKey(m);
    GenerationNotAPlayerKey(p);
  }

  /**
   * The head-to-head key names an unordered pair: two keys are equal exactly
   * when they are built from the same two players, in either order.
   */
  lemma H2HKeyIdentifiesPair(a: PlayerId, b: PlayerId, c: PlayerId, d: PlayerId)
    ensures H2HKey(a, b) == H2HKey(c, d) <==> (a == c && b == d) || (a == d && b == c)
  {
    if H2HKey(a, b) == H2HKey(c, d) {
      var x, y := NatToString(Min(a, b)), NatToString(Max(a, b));
      var u, v := NatToString(Min(c, d)), NatToString(Max(c, d));
      assert "h2h_" + x + "_" + y == "h2h_" + (x + "_" + y);
      assert "h2h_" + u + "_" + v == "h2h_" + (u + "_" + v);
      assert x + "_" + y == u + "_" + v by {
        var s := H2HKey(a, b);
        assert x + "_" + y == s[4..];
        assert u + "_" + v == s[4..];
      }
      SplitAtSeparator(x, y, u, v, '_');
      NatToStringInjective(Min(a, b), Min(c, d));
      NatToStringInjective(Max(a, b), Max(c, d));
    }
  }

  /** Swapping the two sides of a match deletes the same keys */
  lemma MatchKeysIgnoreSideOrder(m: Match)
    ensures MatchKeys(m.(side1 := m.side2, side2 := m.side1)) == MatchKeys(m)
  {
    var w := m.(side1 := m.side2, side2 := m.side1);
    if Singles(m) {
      H2HKeyIdentifiesPair(m.side1.players[0], m.side2.players[0], m.side2.players[0], m.side1.players[0]);
    }
    assert forall p :: p in w.Participants() <==> p in m.Participants();
  }

  /** A player's own keys are not in the delete list of a match they did not play */
  lemma OtherPlayersKeysKept(m: Match, p: PlayerId)
    requires !m.Involves(p)
    ensures PlayerStatsKey(p) !in MatchKeys(m)
    ensures PendingKey(p) !in MatchKeys(m)
  {
    var ps := m.Participants();
    forall q | q in ps
      ensures PlayerStatsKey(p) != PlayerStatsKey(q) && PendingKey(p) != PendingKey(q)
      ensures PlayerStatsKey(p) != PendingKey(q) && PendingKey(p) != PlayerStatsKey(q)
    {
      if PlayerStatsKey(p) == PlayerStatsKey(q) {
        PrefixedNatInjective("player_stats_", p, q);
      }
      if PendingKey(p) == PendingKey(q) {
        PrefixedNatInjective("pending_matches_", p, q);
      }
      assert PlayerStatsKey(p)[1] == 'l' && PendingKey(q)[1] == 'e';
      assert PendingKey(p)[1] == 'e' && PlayerStatsKey(q)[1] == 'l';
    }
    assert PlayerStatsKey(p)[0] == 'p' && PendingKey(p)[0] == 'p';
    forall t | t in {m.side1.id, m.side2.id}
      ensures TeamStatsKey(t)[0] == 't'
    {
    }
    if Singles(m) {
      assert H2HKey(m.side1.players[0], m.side2.players[0])[0] == 'h';
    }
  }

  // ---------------------------------------------------------------------
  // Operations
  // ---------------------------------------------------------------------

  /** The current generation, absent counting as zero */
  function GenerationOf(c: Store): int
    requires Generation !in c || c[Generation].Num?
  {
    if Generation in c then c[Generation].n else 0
  }

  /** `cache.delete_many`: every listed key is gone, every other key is kept */
  function Delete(c: Store, ks: set<string>): (r: Store)
    ensures forall k :: k in r <==> k in c && k !in ks
    ensures forall k :: k in r ==> r[k] == c[k]
  {
    map k | k in c && k !in ks :: c[k]
  }

  /**
   * `invalidate_leaderboard`: increment the generation, or set it to 1 when
   * it is absent. Incrementing a value that is not a number raises, which
   * is the `None` result.
   */
  function BumpGeneration(c: Store): (r: Option<Store>)
    ensures r.None? <==> Generation in c && c[Generation].Other?
    ensures r.Some? ==> r.value.Keys == c.Keys + {Generation}
    ensures r.Some? ==> r.value[Generation] == Num(GenerationOf(c) + 1)
    ensures r.Some? ==> forall k :: k in c && k != Generation ==> r.value[k] == c[k]
  {
    if Generation !in c then Some(c[Generation := Num(1)])
    else match c[Generation]
      case Num(n) => Some(c[Generation := Num(n + 1)])
      case Other(_) => None
  }

  /** `invalidate_match_caches`: bump the generation, then delete the match's keys */
  function InvalidateMatch(c: Store, m: Match): (r: Option<Store>)
    ensures r.None? <==> Generation in c && c[Generation].Other?
    ensures r.Some? ==> forall p :: m.Involves(p) ==> PlayerStatsKey(p) !in r.value && PendingKey(p) !in r.value
    ensures r.Some? && Singles(m) ==> H2HKey(m.side1.players[0], m.side2.players[0]) !in r.value
    ensures r.Some? ==> TeamStatsKey(m.side1.id) !in r.value && TeamStatsKey(m.side2.id) !in r.value
    ensures r.Some? ==> forall k :: k in DashboardKeys ==> k !in r.value
    ensures r.Some? ==> Generation in r.value && r.value[Generation] == Num(GenerationOf(c) + 1)
    ensures r.Some? ==> forall k :: k in c && k != Generation && k !in MatchKeys(m) ==> k in r.value && r.value[k] == c[k]
    ensures r.Some? ==> forall k :: k in r.value ==> k in c || k == Generation
  {
    GenerationNotAMatchKey(m);
    match BumpGeneration(c)
    case None => None
    case Some(b) => Some(Delete(b, MatchKeys(m)))
  }

  /** `invalidate_player_caches`: bump the generation, then delete the player's two keys and the player total */
  function InvalidatePlayer(c: Store, p: PlayerId): (r: Option<Store>)
    ensures r.None? <==> Generation in c && c[Generation].Other?
    ensures r.Some? ==> PlayerStatsKey(p) !in r.value && PendingKey(p) !in r.value && TotalPlayers !in r.value
    ensures r.Some? ==> Generation in r.value && r.value[Generation] == Num(GenerationOf(c) + 1)
    ensures r.Some? ==> forall k :: k in c && k != Generation && k !in PlayerKeys(p) ==> k in r.value && r.value[k] == c[k]
    ensures r.Some? ==> forall k :: k in r.value ==> k in c || k == Generation
  {
    GenerationNotAPlayerKey(p);
    match BumpGeneration(c)
    case None => None
    case Some(b) => Some(Delete(b, PlayerKeys(p)))
  }

  /** `invalidate_all_caches`: `cache.clear()` */
  function InvalidateAll(c: Store): (r: Store)
    ensures forall k :: k !in r
  {
    map[]
  }

  /** Every successful invalidation strictly raises the generation, so stale leaderboard variants are never read again */
  lemma InvalidationRaisesGeneration(c: Store, m: Match, p: PlayerId)
    requires Generation !in c || c[Generation].Num?
    ensures var r := InvalidateMatch(c, m); r.Some? && r.value[Generation].Num? && GenerationOf(r.value) > GenerationOf(c)
    ensures var r := InvalidatePlayer(c, p); r.Some? && r.value[Generation].Num? && GenerationOf(r.value) > GenerationOf(c)
  {
  }

  /** A match invalidation keeps the cached entries of every player who did not play in it */
  lemma MatchInvalidationKeepsOthers(c: Store, m: Match, p: PlayerId)
    requires InvalidateMatch(c, m).Some?
    requires !m.Involves(p)
    ensures PlayerStatsKey(p) in c ==>
      (PlayerStatsKey(p) in InvalidateMatch(c, m).value && InvalidateMatch(c, m).value[PlayerStatsKey(p)] == c[PlayerStatsKey(p)])
    ensures PendingKey(p) in c ==>
      (PendingKey(p) in InvalidateMatch(c, m).value && InvalidateMatch(c, m).value[PendingKey(p)] == c[PendingKey(p)])
  {
    OtherPlayersKeysKept(m, p);
    assert PlayerStatsKey(p)[0] == 'p' && PendingKey(p)[0] == 'p';
    assert Generation[0] == 'l';
  }

  // ---------------------------------------------------------------------
  // The pending-match count (context processor)
  // ---------------------------------------------------------------------

  /** A match that counts as pending for `p`: `p` plays in it, it has a winner, and it is not confirmed */
  predicate Pending(players: Roster, m: Match, p: PlayerId) {
    m.Involves(p) && m.winner.Some? && !MatchConfirmed(players, m)
  }

  /** The ids of the matches pending for `p`: `.distinct()` counts each match once */
  function PendingIds(players: Roster, ms: seq<Match>, p: PlayerId): (ids: set<MatchId>)
    ensures forall x :: x in ms && Pending(players, x, p) ==> x.id in ids
    ensures forall y :: y in ids ==> exists x :: x in ms && Pending(players, x, p) && x.id == y
    ensures ids == set x | x in ms && Pending(players, x, p) :: x.id
    ensures |ids| <= |ms|
    decreases |ms|
  {
    if |ms| == 0 then {}
    else
      var init := ms[..|ms| - 1];
      var x := ms[|ms| - 1];
      assert ms == init + [x];
      var rest := PendingIds(players, init, p);
      if Pending(players, x, p) && x.id !in rest then rest + {x.id} else rest
  }

  /** The number of distinct matches pending for `p` */
  function PendingCount(players: Roster, ms: seq<Match>, p: PlayerId): (n: nat)
    ensures n == |set x | x in ms && Pending(players, x, p) :: x.id|
    ensures n <= |ms|
    ensures n == 0 <==> forall x :: x in ms ==> !Pending(players, x, p)
  {
    |PendingIds(players, ms, p)|
  }

  /** The count shown to the user and the store after the read */
  datatype Read = Read(shown: Value, store: Store)

  /**
   * `pingpong_context`: 0 for an anonymous user or a user with no player.
   * Otherwise a cached value is returned as it is; on a miss the count is
   * computed and stored under the player's pending key.
   */
  function PendingRead(user: User, players: Roster, ms: seq<Match>, c: Store): (r: Read)
    ensures !user.Authenticated() || user.player.None? ==> r == Read(Num(0), c)
    ensures user.Authenticated() && user.player.Some? && PendingKey(user.player.value) in c ==>
      r == Read(c[PendingKey(user.player.value)], c)
    ensures user.Authenticated() && user.player.Some? && PendingKey(user.player.value) !in c ==>
      && r.shown == Num(PendingCount(players, ms, user.player.value))
      && r.store.Keys == c.Keys + {PendingKey(user.player.value)}
      && r.store[PendingKey(user.player.value)] == r.shown
      && forall k :: k in c ==> r.store[k] == c[k]
  {
    if !user.Authenticated() || user.player.None? then Read(Num(0), c)
    else
      var key := PendingKey(user.player.value);
      if key in c then Read(c[key], c)
      else
        var n := Num(PendingCount(players, ms, user.player.value));
        Read(n, c[key := n])
  }

  /** A second read with nothing changed in between shows the same value and leaves the store as it is */
  lemma PendingReadStable(user: User, players: Roster, ms: seq<Match>, c: Store)
    ensures var first := PendingRead(user, players, ms, c);
      PendingRead(user, players, ms, first.store) == first
  {
  }

  /** After a match is invalidated, each of its players' next read recomputes the count from the matches */
  lemma InvalidationForcesRecount(user: User, players: Roster, ms: seq<Match>, c: Store, m: Match)
    requires user.Authenticated() && user.player.Some? && m.Involves(user.player.value)
    requires InvalidateMatch(c, m).Some?
    ensures PendingRead(user, players, ms, InvalidateMatch(c, m).value).shown == Num(PendingCount(players, ms, user.player.value))
  {
  }
}

=== FILE: confirmation.dfy ===
/**
 * Confirmation of match results (signals.py and the Match confirmation
 * predicates): when a side counts as confirmed, when the system confirms on
 * the players' behalf, the "winner just set" edge computed before a save and
 * the completion handler that either auto-confirms or notifies players.
 */
module Confirmation {
  import opened Wrappers
  import opened Domain

  /** Every verified member of the side has confirmed; unverified members are not waited for */
  predicate SideConfirmed(players: Roster, m: Match, t: SideTag) {
    forall p :: p in m.SideOf(t).players && Verified(players, p) ==> p in m.confirmations
  }

  /** `match_confirmed`: both sides are confirmed (a winner is not required) */
  predicate MatchConfirmed(players: Roster, m: Match) {
    SideConfirmed(players, m, One) && SideConfirmed(players, m, Two)
  }

  /** Nobody on the side is able to confirm */
  predicate Unverifiable(players: Roster, m: Match, t: SideTag) {
    forall p :: p in m.SideOf(t).players ==> !Verified(players, p)
  }

  /** Every participant of both sides has a confirmation row */
  predicate EveryoneConfirmed(m: Match) {
    forall p :: p in m.Participants() ==> p in m.confirmations
  }

  /**
   * `should_auto_confirm`: the match has a winner, some participant has not
   * confirmed yet, and one side consists only of players who cannot confirm.
   * "Not yet confirmed" is read on the stored rows: a side of unverified
   * players is waiting for the system, not for its members.
   */
  predicate ShouldAutoConfirm(players: Roster, m: Match) {
    && m.winner.Some?
    && !EveryoneConfirmed(m)
    && (Unverifiable(players, m, One) || Unverifiable(players, m, Two))
  }

  /** A match everyone has confirmed is never auto-confirmed again */
  lemma NoAutoConfirmWhenEveryoneConfirmed(players: Roster, m: Match)
    requires EveryoneConfirmed(m)
    ensures !ShouldAutoConfirm(players, m)
  {
  }

  /** A side nobody on which can confirm never blocks the match */
  lemma UnverifiableSideIsConfirmed(players: Roster, m: Match, t: SideTag)
    requires Unverifiable(players, m, t)
    ensures SideConfirmed(players, m, t)
  {
  }

  /** Auto-confirmation never fires when every player is verified and each side has someone on it */
  lemma NoAutoConfirmWhenAllVerified(players: Roster, m: Match)
    requires |m.side1.players| > 0 && |m.side2.players| > 0
    requires forall p :: m.Involves(p) ==> Verified(players, p)
    ensures !ShouldAutoConfirm(players, m)
  {
    assert m.side1.Has(m.side1.players[0]);
    assert m.side2.Has(m.side2.players[0]);
  }

  /**
   * The confirmation test only looks at the players' accounts, so two
   * rosters that agree on accounts agree on it.
   */
  predicate SameAccounts(a: Roster, b: Roster) {
    a.Keys == b.Keys && forall p :: p in a ==> a[p].account == b[p].account
  }

  lemma SameAccountsSameConfirmation(a: Roster, b: Roster, m: Match)
    requires SameAccounts(a, b)
    ensures MatchConfirmed(a, m) == MatchConfirmed(b, m)
    ensures ShouldAutoConfirm(a, m) == ShouldAutoConfirm(b, m)
  {
    assert forall p :: Verified(a, p) == Verified(b, p);
  }

  // ---------------------------------------------------------------------
  // The pre-save edge
  // ---------------------------------------------------------------------

  /**
   * `track_match_winner_change`: true exactly when the match already exists,
   * its stored row is found with no winner, and the instance being saved
   * carries one. `stored` is the row read back from the database.
   */
  function WinnerJustSet(stored: Option<Match>, instance: Match): (b: bool)
    ensures b <==> instance.saved && stored.Some? && stored.value.winner.None? && instance.winner.Some?
  {
    if instance.saved then
      match stored
      case Some(row) => row.winner.None? && instance.winner.Some?
      case None => false
    else false
  }

  // ---------------------------------------------------------------------
  // The post-save completion handler
  // ---------------------------------------------------------------------

  /** The participants, in roster order, who have an address and have not confirmed */
  function ToNotify(players: Roster, confirmed: set<PlayerId>, ps: seq<PlayerId>): (r: seq<PlayerId>)
    ensures forall p :: p in r <==> p in ps && Reachable(players, p) && p !in confirmed
    ensures |r| <= |ps|
    decreases |ps|
  {
    if |ps| == 0 then []
    else
      var rest := ToNotify(players, confirmed, ps[..|ps| - 1]);
      var p := ps[|ps| - 1];
      assert ps == ps[..|ps| - 1] + [p];
      if Reachable(players, p) && p !in confirmed then rest + [p] else rest
  }

  predicate NoDuplicates(s: seq<PlayerId>) {
    forall i, j :: 0 <= i < j < |s| ==> s[i] != s[j]
  }

  /** Filtering a duplicate-free roster gives a duplicate-free list: nobody is e-mailed twice */
  lemma {:induction false} ToNotifyNoDuplicates(players: Roster, confirmed: set<PlayerId>, ps: seq<PlayerId>)
    requires NoDuplicates(ps)
    ensures NoDuplicates(ToNotify(players, confirmed, ps))
    decreases |ps|
  {
    if |ps| > 0 {
      var init := ps[..|ps| - 1];
      ToNotifyNoDuplicates(players, confirmed, init);
      var rest := ToNotify(players, confirmed, init);
      var p := ps[|ps| - 1];
      assert p !in init;
      assert p !in rest;
    }
  }

  datatype Completion = Completion(m: Match, notified: seq<PlayerId>)

  /** Adds a confirmation for every participant of both sides */
  function ConfirmEveryone(m: Match): (r: Match)
    ensures r.confirmations == m.confirmations + set p | p in m.Participants()
    ensures r.(confirmations := m.confirmations) == m
  {
    m.(confirmations := m.confirmations + set p | p in m.Participants())
  }

  /**
   * `handle_match_completion`: nothing happens unless the winner was just
   * set. Then either the match is auto-confirmed for everyone and nobody is
   * notified, or each participant with an address who has not confirmed is
   * notified.
   */
  function HandleCompletion(players: Roster, m: Match, justSet: bool): (r: Completion)
    ensures !justSet || m.winner.None? ==> r == Completion(m, [])
    ensures justSet && ShouldAutoConfirm(players, m) ==> r == Completion(ConfirmEveryone(m), [])
    ensures justSet && m.winner.Some? && !ShouldAutoConfirm(players, m) ==>
      r.m == m && forall p :: p in r.notified <==> m.Involves(p) && Reachable(players, p) && p !in m.confirmations
  {
    if !justSet || m.winner.None? then Completion(m, [])
    else if ShouldAutoConfirm(players, m) then Completion(ConfirmEveryone(m), [])
    else Completion(m, ToNotify(players, m.confirmations, m.Participants()))
  }

  /** After auto-confirmation the match counts as confirmed */
  lemma AutoConfirmConfirms(players: Roster, m: Match)
    ensures MatchConfirmed(players, ConfirmEveryone(m))
  {
  }

  /** The handler only ever adds confirmations; it never withdraws one */
  lemma HandleCompletionOnlyAdds(players: Roster, m: Match, justSet: bool)
    ensures m.confirmations <= HandleCompletion(players, m, justSet).m.confirmations
    ensures HandleCompletion(players, m, justSet).m.(confirmations := m.confirmations) == m
  {
  }

  /**
   * A decided match whose players are all unverified is confirmed by the
   * system on the edge: every participant gets a confirmation and nobody is
   * e-mailed, whatever addresses they have.
   */
  lemma UnverifiedPlayersAutoConfirmed(players: Roster, m: Match)
    requires m.winner.Some?
    requires exists p :: m.Involves(p) && p !in m.confirmations
    requires forall p :: m.Involves(p) ==> !Verified(players, p)
    ensures HandleCompletion(players, m, true).notified == []
    ensures forall p :: m.Involves(p) ==> p in HandleCompletion(players, m, true).m.confirmations
    ensures MatchConfirmed(players, HandleCompletion(players, m, true).m)
  {
    assert Unverifiable(players, m, One) by {
      forall p | p in m.side1.players ensures !Verified(players, p) {
        assert m.Involves(p);
      }
    }
    assert ShouldAutoConfirm(players, m);
  }

  /** With duplicate-free, disjoint rosters each player is notified at most once */
  lemma NotifiedOnce(players: Roster, m: Match, justSet: bool)
    requires NoDuplicates(m.Participants())
    ensures NoDuplicates(HandleCompletion(players, m, justSet).notified)
  {
    if justSet && m.winner.Some? && !ShouldAutoConfirm(players, m) {
      ToNotifyNoDuplicates(players, m.confirmations, m.Participants());
    }
  }
}

=== FILE: domain.dfy ===
/**
 * The entities of the table-tennis tracker: players with their accounts and
 * Elo fields, sides (teams), matches, games, confirmations and users.
 *
 * Two generations of the schema coexist in the source: `player1`/`player2`
 * with two boolean confirmation flags, and `team1`/`team2` with one
 * confirmation row per player. Both are represented here by a `Side` (an
 * ordered roster of player ids) and a set of confirming player ids; a
 * singles match with flags is the case where each side has one player.
 */
module Domain {
  import opened Wrappers

  type PlayerId = nat
  type TeamId = nat
  type MatchId = nat
  type UserId = nat
  type LocationId = nat

  /** Which of the two sides of a match */
  datatype SideTag = One | Two {
    function Other(): SideTag {
      if this == One then Two else One
    }
  }

  /**
   * A roster. The sequence order is the roster's default ordering, so
   * `players[0]` is what `team.players.first()` returns.
   */
  datatype Side = Side(id: TeamId, players: seq<PlayerId>) {
    predicate Has(p: PlayerId) {
      p in players
    }
  }

  datatype MatchKind = Casual | Practice | Tournament

  /** One game of a match. `winner` is the stored winning side, if any. */
  datatype Game = Game(number: int, score1: int, score2: int, winner: Option<SideTag>)

  datatype Match = Match(
    id: MatchId,
    saved: bool,               // the row exists (Django's `self.pk` is set)
    side1: Side,
    side2: Side,
    bestOf: int,
    kind: MatchKind,
    isDouble: bool,
    winner: Option<SideTag>,
    confirmations: set<PlayerId>,
    games: seq<Game>,
    datePlayed: int,
    createdAt: int,
    location: Option<LocationId>,
    notes: string)
  {
    function SideOf(t: SideTag): Side {
      if t == One then side1 else side2
    }

    /** Some player of the match is `p` (on either side) */
    predicate Involves(p: PlayerId) {
      side1.Has(p) || side2.Has(p)
    }

    /** Every player of both rosters */
    function Participants(): (ps: seq<PlayerId>)
      ensures forall p :: p in ps <==> Involves(p)
    {
      side1.players + side2.players
    }
  }

  /** A Django user account linked to a player, with its verification flag */
  datatype Account = Account(user: UserId, email: string, emailVerified: bool)

  /** The Elo fields of a player: `elo_rating`, `elo_peak`, `matches_for_elo` */
  datatype EloState = EloState(rating: int, peak: int, rated: nat)

  datatype Player = Player(name: string, nickname: string, account: Option<Account>, elo: EloState)

  type Roster = map<PlayerId, Player>

  /** The player can confirm results: linked to an account whose e-mail is verified */
  predicate Verified(players: Roster, p: PlayerId) {
    p in players && players[p].account.Some? && players[p].account.value.emailVerified
  }

  /** The player can be e-mailed: linked to an account with a non-empty address */
  predicate Reachable(players: Roster, p: PlayerId) {
    p in players && players[p].account.Some? && players[p].account.value.email != ""
  }

  /** The request's user: anonymous, or an authenticated account */
  datatype User =
    | Anonymous
    | Member(id: UserId, isStaff: bool, isSuperuser: bool, player: Option<PlayerId>)
  {
    predicate Authenticated() {
      Member?
    }

    predicate Privileged() {
      Member? && (isStaff || isSuperuser)
    }
  }
}

=== FILE: elo.dfy ===
/**
 * The Elo engine (elo.py): the K-factor, the per-player deltas and the
 * guarded application that updates both players and writes two history
 * rows, at most once per match.
 *
 * The expected score `1 / (1 + 10 ** ((rb - ra) / 400))` is floating-point
 * and is not computed here: it is a parameter `E`, of which only what the
 * code relies on is assumed (`ValidExpectation`).
 */
module Elo {
  import opened Wrappers
  import opened Domain
  import opened Confirmation
  import opened Rounding

  // ---------------------------------------------------------------------
  // K-factor
  // ---------------------------------------------------------------------

  const BaseK: real := 32.0
  const NewPlayerThreshold: nat := 20

  function TypeMultiplier(kind: MatchKind): real {
    if kind == Tournament then 1.5 else 1.0
  }

  /** The lookup `{3: 0.9, 5: 1.0, 7: 1.1}.get(best_of, 1.0)` */
  function BestOfMultiplier(bestOf: int): real {
    if bestOf == 3 then 0.9
    else if bestOf == 5 then 1.0
    else if bestOf == 7 then 1.1
    else 1.0
  }

  function ExperienceMultiplier(rated: nat): real {
    if rated < NewPlayerThreshold then 1.5 else 1.0
  }

  /** `calculate_k_factor`, in exact rational arithmetic */
  function KFactor(kind: MatchKind, bestOf: int, rated: nat): (k: real)
    ensures 28.8 <= k <= 79.2
    ensures kind != Tournament && bestOf == 5 && rated >= 20 ==> k == 32.0
    ensures kind == Tournament && bestOf == 5 && rated >= 20 ==> k == 48.0
    ensures kind != Tournament && bestOf == 5 && rated < 20 ==> k == 48.0
    ensures kind != Tournament && bestOf == 3 && rated >= 20 ==> k == 28.8
    ensures kind != Tournament && bestOf == 7 && rated >= 20 ==> k == 35.2
    ensures kind == Tournament && bestOf == 7 && rated < 20 ==> k == 79.2
    ensures bestOf != 3 && bestOf != 5 && bestOf != 7 ==> k == BaseK * TypeMultiplier(kind) * ExperienceMultiplier(rated)
  {
    BaseK * TypeMultiplier(kind) * BestOfMultiplier(bestOf) * ExperienceMultiplier(rated)
  }

  /** A player in the first twenty rated matches moves half as fast again as a veteran */
  lemma NewPlayerBoost(kind: MatchKind, bestOf: int, rated: nat)
    requires rated < NewPlayerThreshold
    ensures KFactor(kind, bestOf, rated) == 1.5 * KFactor(kind, bestOf, NewPlayerThreshold)
  {
  }

  // ---------------------------------------------------------------------
  // Expected score
  // ---------------------------------------------------------------------

  /** What the engine assumes of `calculate_expected_score` */
  ghost predicate ValidExpectation(E: (int, int) -> real) {
    && (forall a, b :: 0.0 < E(a, b) < 1.0)
    && (forall r :: E(r, r) == 0.5)
  }

  // ---------------------------------------------------------------------
  // Deltas
  // ---------------------------------------------------------------------

  /** The player `team.players.first()` returns for side `t` */
  function Lead(m: Match, t: SideTag): PlayerId
    requires |m.SideOf(t).players| > 0
  {
    m.SideOf(t).players[0]
  }

  /** Both sides have a first player, and both first players are known */
  predicate Playable(m: Match, players: Roster) {
    && |m.side1.players| > 0 && |m.side2.players| > 0
    && Lead(m, One) in players && Lead(m, Two) in players
  }

  datatype Change = Change(d1: int, d2: int, k1: real, k2: real)

  /**
   * Deltas for the first players of the two sides. Player one scores 1 when
   * the winning side's first player is player one, else 0; player two's
   * expectation and score are the complements of player one's.
   */
  function Deltas(E: (int, int) -> real, m: Match, players: Roster): (c: Change)
    requires m.winner.Some? && Playable(m, players)
    ensures c.k1 == KFactor(m.kind, m.bestOf, players[Lead(m, One)].elo.rated)
    ensures c.k2 == KFactor(m.kind, m.bestOf, players[Lead(m, Two)].elo.rated)
  {
    var e1 := Expected1(E, m, players);
    var s1 := Actual1(m);
    var k1 := KFactor(m.kind, m.bestOf, players[Lead(m, One)].elo.rated);
    var k2 := KFactor(m.kind, m.bestOf, players[Lead(m, Two)].elo.rated);
    Change(Delta(k1, s1, e1), Delta(k2, 1.0 - s1, 1.0 - e1), k1, k2)
  }

  /** `round(k * (s - e))` */
  function Delta(k: real, s: real, e: real): int {
    RoundHalfEven(k * (s - e))
  }

  /** Player one's expected score against player two */
  function Expected1(E: (int, int) -> real, m: Match, players: Roster): real
    requires Playable(m, players)
  {
    E(players[Lead(m, One)].elo.rating, players[Lead(m, Two)].elo.rating)
  }

  /**
   * Player one's actual score: 1 when the winning side's first player is
   * player one. Side one winning always scores 1; side two winning scores 0
   * unless the same player leads both sides.
   */
  function Actual1(m: Match): (s: real)
    requires m.winner.Some? && |m.side1.players| > 0 && |m.side2.players| > 0
    ensures s == 0.0 || s == 1.0
    ensures s == 1.0 <==> Lead(m, m.winner.value) == Lead(m, One)
    ensures m.winner == Some(One) ==> s == 1.0
    ensures m.winner == Some(Two) ==> (s == 0.0 <==> Lead(m, One) != Lead(m, Two))
  {
    if Lead(m, m.winner.value) == Lead(m, One) then 1.0 else 0.0
  }

  /**
   * With the expected score strictly between 0 and 1, the winner never loses
   * points and the loser never gains any.
   */
  lemma WinnerGainsLoserLoses(E: (int, int) -> real, m: Match, players: Roster)
    requires ValidExpectation(E)
    requires m.winner.Some? && Playable(m, players)
    requires Lead(m, One) != Lead(m, Two)
    ensures m.winner == Some(One) ==> Deltas(E, m, players).d1 >= 0 && Deltas(E, m, players).d2 <= 0
    ensures m.winner == Some(Two) ==> Deltas(E, m, players).d1 <= 0 && Deltas(E, m, players).d2 >= 0
  {
    var e1 := Expected1(E, m, players);
    assert 0.0 < e1 < 1.0;
    var c := Deltas(E, m, players);
    assert c.k1 > 0.0 && c.k2 > 0.0;
    if m.winner == Some(One) {
      assert c.k1 * (1.0 - e1) >= 0.0;
      assert c.k2 * (0.0 - (1.0 - e1)) <= 0.0;
    } else {
      assert c.k1 * (0.0 - e1) <= 0.0;
      assert c.k2 * (1.0 - (1.0 - e1)) >= 0.0;
    }
  }

  /** Complementing both the score and the expectation negates the rounded delta */
  lemma ComplementDelta(k: real, s: real, e: real)
    ensures Delta(k, 1.0 - s, 1.0 - e) == -Delta(k, s, e)
  {
    var y := s - e;
    assert (1.0 - s) - (1.0 - e) == -y;
    assert k * (-y) == -(k * y);
    RoundNegation(k * y);
  }

  /** With equal K-factors the two deltas cancel exactly */
  lemma EqualKZeroSum(E: (int, int) -> real, m: Match, players: Roster)
    requires m.winner.Some? && Playable(m, players)
    requires Deltas(E, m, players).k1 == Deltas(E, m, players).k2
    ensures Deltas(E, m, players).d2 == -Deltas(E, m, players).d1
  {
    ComplementDelta(Deltas(E, m, players).k1, Actual1(m), Expected1(E, m, players));
  }

  /** Between two equal ratings the winner gains exactly what the expected score gives away: K/2 rounded */
  lemma EvenMatchDelta(E: (int, int) -> real, m: Match, players: Roster)
    requires ValidExpectation(E)
    requires m.winner == Some(One) && Playable(m, players)
    requires players[Lead(m, One)].elo.rating == players[Lead(m, Two)].elo.rating
    ensures Deltas(E, m, players).d1 == RoundHalfEven(Deltas(E, m, players).k1 / 2.0)
  {
    var r := players[Lead(m, One)].elo.rating;
    var c := Deltas(E, m, players);
    assert Expected1(E, m, players) == E(r, r) == 0.5;
    assert Actual1(m) == 1.0;
    assert c.d1 == Delta(c.k1, 1.0, 0.5);
    HalfDelta(c.k1);
  }

  /** A sure win against an even expectation moves the rating by half of K */
  lemma HalfDelta(k: real)
    ensures Delta(k, 1.0, 0.5) == RoundHalfEven(k / 2.0)
  {
    assert k * (1.0 - 0.5) == k / 2.0;
  }

  // ---------------------------------------------------------------------
  // Guarded application
  // ---------------------------------------------------------------------

  /** One `EloHistory` row */
  datatype HistoryRow = HistoryRow(matchId: MatchId, player: PlayerId, oldRating: int, newRating: int, change: int, k: real)

  /** The players' Elo fields and the history table */
  datatype Ledger = Ledger(players: Roster, history: seq<HistoryRow>)

  datatype Skip = NoWinner | NotConfirmed | AlreadyRated | Doubles

  /** Some history row refers to match `id` */
  predicate Rated(history: seq<HistoryRow>, id: MatchId) {
    exists i :: 0 <= i < |history| && history[i].matchId == id
  }

  /** The guards of `update_player_elo`, in the order the code checks them */
  function Guard(m: Match, l: Ledger): (r: Option<Skip>)
    ensures r.None? <==> m.winner.Some? && MatchConfirmed(l.players, m) && !Rated(l.history, m.id) && !m.isDouble
    ensures r == Some(NoWinner) <==> m.winner.None?
    ensures r == Some(NotConfirmed) <==> m.winner.Some? && !MatchConfirmed(l.players, m)
    ensures r == Some(AlreadyRated) <==> m.winner.Some? && MatchConfirmed(l.players, m) && Rated(l.history, m.id)
  {
    if m.winner.None? then Some(NoWinner)
    else if !MatchConfirmed(l.players, m) then Some(NotConfirmed)
    else if Rated(l.history, m.id) then Some(AlreadyRated)
    else if m.isDouble then Some(Doubles)
    else None
  }

  /** `rating += delta; peak = max(peak, rating); matches_for_elo += 1` */
  function Bump(s: EloState, d: int): (r: EloState)
    ensures r.rating == s.rating + d
    ensures r.peak >= r.rating && r.peak >= s.peak
    ensures r.peak == s.peak || r.peak == r.rating
    ensures r.rated == s.rated + 1
  {
    var rating := s.rating + d;
    EloState(rating, if s.peak >= rating then s.peak else rating, s.rated + 1)
  }

  function WithElo(p: Player, s: EloState): Player {
    p.(elo := s)
  }

  /**
   * `update_player_elo`: when a guard fails nothing changes. Otherwise both
   * first players are updated from their ratings before the match (the
   * second write wins if they are the same player) and two history rows are
   * appended.
   */
  function ApplyElo(E: (int, int) -> real, m: Match, l: Ledger): (r: Ledger)
    requires Guard(m, l).None? ==> Playable(m, l.players)
    ensures Guard(m, l).Some? ==> r == l
    ensures Guard(m, l).None? ==>
      && |r.history| == |l.history| + 2
      && r.history[..|l.history|] == l.history
      && r.history[|l.history|].matchId == m.id && r.history[|l.history| + 1].matchId == m.id
      && r.history[|l.history|].player == Lead(m, One) && r.history[|l.history| + 1].player == Lead(m, Two)
      && r.history[|l.history|].newRating == r.history[|l.history|].oldRating + r.history[|l.history|].change
      && r.history[|l.history| + 1].newRating == r.history[|l.history| + 1].oldRating + r.history[|l.history| + 1].change
    ensures r.players.Keys == l.players.Keys
    ensures Guard(m, l).None? ==>
      var c := Deltas(E, m, l.players); var row1 := r.history[|l.history|]; var row2 := r.history[|l.history| + 1];
      && row1.oldRating == l.players[Lead(m, One)].elo.rating && row2.oldRating == l.players[Lead(m, Two)].elo.rating
      && row1.change == c.d1 && row2.change == c.d2
      && row1.k == c.k1 && row2.k == c.k2
      && row2.newRating == r.players[Lead(m, Two)].elo.rating
      && (Lead(m, One) != Lead(m, Two) ==> row1.newRating == r.players[Lead(m, One)].elo.rating)
    ensures forall p :: p in l.players && !(Guard(m, l).None? && (p == Lead(m, One) || p == Lead(m, Two))) ==>
      r.players[p] == l.players[p]
  {
    if Guard(m, l).Some? then l
    else
      var p1, p2 := Lead(m, One), Lead(m, Two);
      var c := Deltas(E, m, l.players);
      var old1, old2 := l.players[p1].elo, l.players[p2].elo;
      var new1, new2 := Bump(old1, c.d1), Bump(old2, c.d2);
      var players := l.players[p1 := WithElo(l.players[p1], new1)][p2 := WithElo(l.players[p2], new2)];
      var row1 := HistoryRow(m.id, p1, old1.rating, new1.rating, c.d1, c.k1);
      var row2 := HistoryRow(m.id, p2, old2.rating, new2.rating, c.d2, c.k2);
      Ledger(players, l.history + [row1, row2])
  }

  /** On application each of two distinct players gets rating + delta, a raised peak and one more rated match */
  lemma ApplyEloUpdatesPlayers(E: (int, int) -> real, m: Match, l: Ledger)
    requires Guard(m, l).None? && Playable(m, l.players)
    requires Lead(m, One) != Lead(m, Two)
    ensures var r := ApplyElo(E, m, l); var c := Deltas(E, m, l.players);
      && r.players[Lead(m, One)].elo == Bump(l.players[Lead(m, One)].elo, c.d1)
      && r.players[Lead(m, Two)].elo == Bump(l.players[Lead(m, Two)].elo, c.d2)
  {
  }

  /** With equal K-factors a rated match between two players preserves the sum of their ratings */
  lemma ApplyEloPreservesSum(E: (int, int) -> real, m: Match, l: Ledger)
    requires Guard(m, l).None? && Playable(m, l.players)
    requires Lead(m, One) != Lead(m, Two)
    requires Deltas(E, m, l.players).k1 == Deltas(E, m, l.players).k2
    ensures var r := ApplyElo(E, m, l);
      r.players[Lead(m, One)].elo.rating + r.players[Lead(m, Two)].elo.rating ==
      l.players[Lead(m, One)].elo.rating + l.players[Lead(m, Two)].elo.rating
  {
    EqualKZeroSum(E, m, l.players);
  }

  /** Two rosters that differ only in Elo fields */
  predicate SameProfiles(a: Roster, b: Roster) {
    a.Keys == b.Keys && forall p :: p in a ==> a[p] == WithElo(b[p], a[p].elo)
  }

  lemma SameProfilesSameAccounts(a: Roster, b: Roster)
    requires SameProfiles(a, b)
    ensures SameAccounts(a, b)
  {
  }

  /** Application only touches Elo fields */
  lemma ApplyEloKeepsProfiles(E: (int, int) -> real, m: Match, l: Ledger)
    requires Guard(m, l).None? ==> Playable(m, l.players)
    ensures SameProfiles(ApplyElo(E, m, l).players, l.players)
  {
  }

  /** Every player whose peak is at least their rating keeps that property */
  predicate PeaksValid(players: Roster) {
    forall p :: p in players ==> players[p].elo.peak >= players[p].elo.rating
  }

  lemma ApplyEloKeepsPeaks(E: (int, int) -> real, m: Match, l: Ledger)
    requires Guard(m, l).None? ==> Playable(m, l.players)
    requires PeaksValid(l.players)
    ensures PeaksValid(ApplyElo(E, m, l).players)
  {
  }

  /** Idempotence: applying a second time changes nothing */
  lemma ApplyEloIdempotent(E: (int, int) -> real, m: Match, l: Ledger)
    requires Guard(m, l).None? ==> Playable(m, l.players)
    ensures Guard(m, ApplyElo(E, m, l)).Some?
    ensures ApplyElo(E, m, ApplyElo(E, m, l)) == ApplyElo(E, m, l)
  {
    var r := ApplyElo(E, m, l);
    if Guard(m, l).None? {
      ApplyEloKeepsProfiles(E, m, l);
      SameAccountsSameConfirmation(r.players, l.players, m);
      assert r.history[|l.history|].matchId == m.id;
      assert Rated(r.history, m.id);
    }
  }
}

=== FILE: emails.dfy ===
/**
 * The computed parts of the match-confirmation e-mail (emails.py): which
 * side the player is on, the score line with the player's own games first,
 * the won/lost verdict, the subject, the recipient and the confirmation
 * link. The message bodies and the sending itself are not modelled.
 */
module Emails {
  import opened Wrappers
  import opened Text
  import opened Domain
  import opened Scoring

  const Celebrate: char := '\U{1F389}'
  const Flex: char := '\U{1F4AA}'
  const DefaultProtocol: string := "http"
  const DefaultDomain: string := "localhost:8000"

  /** `SITE_PROTOCOL` and `SITE_DOMAIN`, when configured */
  datatype Site = Site(protocol: Option<string>, domain: Option<string>)

  datatype Email = Email(subject: string, score: string, result: string, url: string, recipients: seq<string>)

  /** Nothing to send, the helper raised (no winner or no account), or the e-mail */
  datatype Draft = Skipped | Raised | Drafted(email: Email)

  /** `"{own}-{other}"` */
  function ScoreLine(own: nat, other: nat): string {
    NatToString(own) + "-" + NatToString(other)
  }

  /** A score line names its two numbers unambiguously */
  lemma ScoreLineInjective(a: nat, b: nat, c: nat, d: nat)
    requires ScoreLine(a, b) == ScoreLine(c, d)
    ensures a == c && b == d
  {
    SplitAtSeparator(NatToString(a), NatToString(b), NatToString(c), NatToString(d), '-');
    NatToStringInjective(a, c);
    NatToStringInjective(b, d);
  }

  /** `{protocol}://{domain}/pingpong/matches/{pk}/`, with the defaults filled in */
  function ConfirmUrl(site: Site, id: MatchId): string {
    site.protocol.GetOr(DefaultProtocol) + "://" + site.domain.GetOr(DefaultDomain) + "/pingpong/matches/" + NatToString(id) + "/"
  }

  /** Different matches get different links */
  lemma ConfirmUrlInjective(site: Site, a: MatchId, b: MatchId)
    requires ConfirmUrl(site, a) == ConfirmUrl(site, b)
    ensures a == b
  {
    var prefix := site.protocol.GetOr(DefaultProtocol) + "://" + site.domain.GetOr(DefaultDomain) + "/pingpong/matches/";
    var u := ConfirmUrl(site, a);
    assert u == prefix + NatToString(a) + "/";
    assert ConfirmUrl(site, b) == prefix + NatToString(b) + "/";
    assert prefix + NatToString(a) == u[..|u| - 1];
    assert prefix + NatToString(b) == u[..|u| - 1];
    PrefixedNatInjective(prefix, a, b);
  }

  /**
   * `send_match_confirmation_email(match, player)`. A player on neither
   * side gets nothing. Otherwise the player's side is looked up (side one
   * first), the score is written with that side's games first, and the
   * verdict is "won" when the player is on the winning side's roster (the
   * reading of `match.winner.all()` the e-mail tests expect). A match with
   * no winner, or a player with no account, makes the helper raise.
   */
  function ConfirmationEmail(players: Roster, m: Match, p: PlayerId, site: Site): (r: Draft)
    ensures r == Skipped <==> !m.Involves(p)
    ensures r == Raised <==> m.Involves(p) && (m.winner.None? || p !in players || players[p].account.None?)
    ensures r.Drafted? ==> m.winner.Some? && p in players && players[p].account.Some?
    ensures r.Drafted? ==> r.email.recipients == [players[p].account.value.email]
    ensures r.Drafted? ==> r.email.url == ConfirmUrl(site, m.id)
    ensures r.Drafted? ==> (r.email.result == "won" <==> m.SideOf(m.winner.value).Has(p))
    ensures r.Drafted? ==> (r.email.result == "won" || r.email.result == "lost")
    ensures r.Drafted? && m.side1.Has(p) ==> r.email.score == ScoreLine(Score(m, One), Score(m, Two))
    ensures r.Drafted? && !m.side1.Has(p) ==> r.email.score == ScoreLine(Score(m, Two), Score(m, One))
  {
    if !m.side1.Has(p) && !m.side2.Has(p) then Skipped
    else if m.winner.None? || p !in players || players[p].account.None? then Raised
    else
      var own := if m.side1.Has(p) then One else Two;
      var won := m.SideOf(m.winner.value).Has(p);
      var emoji := if won then Celebrate else Flex;
      Drafted(Email(
        [emoji] + " Match Complete - Please Confirm",
        ScoreLine(Score(m, own), Score(m, own.Other())),
        if won then "won" else "lost",
        ConfirmUrl(site, m.id),
        [players[p].account.value.email]))
  }

  /** The subject always announces a completed match, with the emoji matching the verdict */
  lemma SubjectAnnouncesCompletion(players: Roster, m: Match, p: PlayerId, site: Site)
    requires ConfirmationEmail(players, m, p, site).Drafted?
    ensures var e := ConfirmationEmail(players, m, p, site).email;
      && e.subject[1..] == " Match Complete - Please Confirm"
      && (e.subject[0] == Celebrate <==> e.result == "won")
  {
  }

  /**
   * Two opponents, one on each side, read the same match from opposite
   * ends: each sees their own games first, so the two score lines are
   * mirror images, and exactly one of them has won.
   */
  lemma OpponentsSeeMirroredScores(players: Roster, m: Match, p: PlayerId, q: PlayerId, site: Site)
    requires m.side1.Has(p) && !m.side2.Has(p)
    requires m.side2.Has(q) && !m.side1.Has(q)
    requires ConfirmationEmail(players, m, p, site).Drafted? && ConfirmationEmail(players, m, q, site).Drafted?
    ensures var e, f := ConfirmationEmail(players, m, p, site).email, ConfirmationEmail(players, m, q, site).email;
      && e.score == ScoreLine(Score(m, One), Score(m, Two))
      && f.score == ScoreLine(Score(m, Two), Score(m, One))
      && (e.result == "won" <==> f.result == "lost")
  {
  }
}

=== FILE: pipeline.dfy ===
/**
 * The two request handlers that drive a match to completion (views.py):
 * adding a game (`GameCreateView`) and confirming a result
 * (`match_confirm`). Each ends in `Match.save`, whose pre-save and
 * post-save handlers decide whether the completion step runs.
 */
module Pipeline {
  import opened Wrappers
  import opened Domain
  import opened Scoring
  import opened Confirmation

  /**
   * `Match.save` with its signal handlers: the winner is recomputed, the
   * "winner just set" edge is taken against the stored row, and the
   * completion handler runs on the saved match.
   */
  function SaveWithSignals(players: Roster, stored: Option<Match>, m: Match): (r: Completion)
    ensures r.m.(confirmations := m.confirmations, winner := m.winner) == m
    ensures m.confirmations <= r.m.confirmations
    ensures stored.Some? && stored.value.winner.Some? ==> r == Completion(SaveMatch(m), [])
    ensures m.winner.Some? ==> r.m.winner.Some?
  {
    var saved := SaveMatch(m);
    HandleCompletion(players, saved, WinnerJustSet(stored, saved))
  }

  // ---------------------------------------------------------------------
  // Adding a game
  // ---------------------------------------------------------------------

  datatype GameError = MatchComplete | Invalid(error: FormError) | DuplicateNumber

  datatype GameOutcome =
    | Refused(error: GameError)
    | Recorded(m: Match, game: Game, notified: seq<PlayerId>)

  /** The number the view gives the new game: the one entered, or the next free one when none (or 0) was entered */
  function ChosenNumber(games: seq<Game>, entered: Option<int>): (n: int)
    ensures entered.Some? && entered.value != 0 ==> n == entered.value
    ensures entered.None? || entered == Some(0) ==> !HasNumber(games, n)
  {
    match entered
    case Some(k) => if k != 0 then k else NextGameNumber(games)
    case None => NextGameNumber(games)
  }

  /**
   * `GameCreateView`: a match that already has a winner takes no more
   * games; the scores must pass `GameForm.clean`; the game gets its number
   * (an existing number violates `unique_together`); `Game.save` picks the
   * game winner and saves the match, which may complete it.
   */
  function RecordGame(players: Roster, m: Match, entered: Option<int>, s1: int, s2: int): (r: GameOutcome)
    requires m.saved
    ensures r == Refused(MatchComplete) <==> m.winner.Some?
    ensures r.Refused? && r.error.Invalid? <==> m.winner.None? && CleanGameScores(Some(s1), Some(s2)).Some?
    ensures r.Recorded? ==> m.winner.None? && CleanGameScores(Some(s1), Some(s2)).None?
    ensures r.Recorded? ==> !HasNumber(m.games, r.game.number) && r.m.games == m.games + [r.game]
    ensures r.Recorded? ==> r.game.score1 == s1 && r.game.score2 == s2
    ensures r.Recorded? ==> r.game.winner == Some(if s1 > s2 then One else Two)
    ensures r.Recorded? ==> m.confirmations <= r.m.confirmations
    ensures r.Recorded? && r.m.winner.None? ==> r.m == m.(games := m.games + [r.game]) && r.notified == []
  {
    if m.winner.Some? then Refused(MatchComplete)
    else match CleanGameScores(Some(s1), Some(s2))
      case Some(e) => Refused(Invalid(e))
      case None =>
        var n := ChosenNumber(m.games, entered);
        if HasNumber(m.games, n) then Refused(DuplicateNumber)
        else
          var g := SaveGame(Game(n, s1, s2, None));
          CleanScoresDecideGame(Game(n, s1, s2, None));
          var c := SaveWithSignals(players, Some(m), m.(games := m.games + [g]));
          Recorded(c.m, g, c.notified)
  }

  /** Recording a game keeps game numbers unique within the match */
  lemma RecordGameKeepsNumbersDistinct(players: Roster, m: Match, entered: Option<int>, s1: int, s2: int)
    requires m.saved && DistinctNumbers(m.games)
    requires RecordGame(players, m, entered, s1, s2).Recorded?
    ensures DistinctNumbers(RecordGame(players, m, entered, s1, s2).m.games)
  {
    var r := RecordGame(players, m, entered, s1, s2);
    var gs := r.m.games;
    forall i, j | 0 <= i < j < |gs|
      ensures gs[i].number != gs[j].number
    {
      if j == |m.games| {
        assert gs[j] == r.game;
        assert gs[i] == m.games[i];
      }
    }
  }

  /**
   * The game that decides a match runs the completion step: the match is
   * then either confirmed by the system, or every reachable participant
   * who has not confirmed is on the notification list. When nobody in the
   * match is verified, it is always the former: no mail is sent.
   */
  lemma DecidingGameCompletesMatch(players: Roster, m: Match, entered: Option<int>, s1: int, s2: int)
    requires m.saved
    requires RecordGame(players, m, entered, s1, s2).Recorded?
    requires RecordGame(players, m, entered, s1, s2).m.winner.Some?
    ensures var r := RecordGame(players, m, entered, s1, s2);
      var decided := m.(games := m.games + [r.game]);
      var saved := SaveMatch(decided);
      && saved.winner.Some?
      && (ShouldAutoConfirm(players, saved) ==> MatchConfirmed(players, r.m) && r.notified == [])
      && (!ShouldAutoConfirm(players, saved) ==>
            (r.m == saved && forall p :: p in r.notified <==> saved.Involves(p) && Reachable(players, p) && p !in saved.confirmations))
    ensures var r := RecordGame(players, m, entered, s1, s2);
      (forall p :: m.Involves(p) ==> !Verified(players, p)) && (exists p :: m.Involves(p) && p !in m.confirmations) ==>
        r.notified == [] && forall p :: m.Involves(p) ==> p in r.m.confirmations
  {
    var r := RecordGame(players, m, entered, s1, s2);
    var saved := SaveMatch(m.(games := m.games + [r.game]));
    if ShouldAutoConfirm(players, saved) {
      AutoConfirmConfirms(players, saved);
    }
    if (forall p :: m.Involves(p) ==> !Verified(players, p)) && (exists p :: m.Involves(p) && p !in m.confirmations) {
      UnverifiedPlayersAutoConfirmed(players, saved);
    }
  }

  // ---------------------------------------------------------------------
  // Confirming a result
  // ---------------------------------------------------------------------

  datatype ConfirmStatus = NoProfile | ConfirmedNow | AlreadyConfirmed | NotParticipant

  datatype ConfirmOutcome = ConfirmOutcome(status: ConfirmStatus, m: Match, notified: seq<PlayerId>)

  /**
   * `match_confirm` for a logged-in user: a participant who has not yet
   * confirmed adds their own confirmation and the match is saved; anyone
   * else changes nothing.
   */
  function ConfirmMatch(players: Roster, m: Match, user: User): (r: ConfirmOutcome)
    requires user.Member? && m.saved
    ensures r.status == NoProfile <==> user.player.None?
    ensures r.status == ConfirmedNow <==> user.player.Some? && m.Involves(user.player.value) && user.player.value !in m.confirmations
    ensures r.status == AlreadyConfirmed <==> user.player.Some? && m.Involves(user.player.value) && user.player.value in m.confirmations
    ensures r.status == NotParticipant <==> user.player.Some? && !m.Involves(user.player.value)
    ensures r.status != ConfirmedNow ==> r == ConfirmOutcome(r.status, m, [])
    ensures r.status == ConfirmedNow ==> m.confirmations + {user.player.value} <= r.m.confirmations
    ensures r.status == ConfirmedNow && m.winner.Some? ==>
      r.m.confirmations == m.confirmations + {user.player.value} && r.notified == []
  {
    match user.player
    case None => ConfirmOutcome(NoProfile, m, [])
    case Some(p) =>
      if m.Involves(p) && p !in m.confirmations then
        var c := SaveWithSignals(players, Some(m), m.(confirmations := m.confirmations + {p}));
        ConfirmOutcome(ConfirmedNow, c.m, c.notified)
      else if m.Involves(p) then ConfirmOutcome(AlreadyConfirmed, m, [])
      else ConfirmOutcome(NotParticipant, m, [])
  }

  /** Once every other verified player has confirmed, the last one's confirmation confirms the match */
  lemma LastConfirmationConfirms(players: Roster, m: Match, user: User)
    requires user.Member? && m.saved && user.player.Some?
    requires m.winner.Some?
    requires forall q :: m.Involves(q) && Verified(players, q) && q != user.player.value ==> q in m.confirmations
    ensures MatchConfirmed(players, ConfirmMatch(players, m, user).m)
  {
  }
}

=== FILE: replay.dfy ===
/**
 * The `recalculate_elo` command: select every decided, confirmed singles
 * match, order them by (date played, creation time), reset every player to
 * 1500 and empty the history, then apply the Elo update to each match in
 * that order. In dry-run mode nothing is changed and only the count of
 * selected matches is reported.
 */
module Replay {
  import opened Wrappers
  import opened Domain
  import opened Confirmation
  import opened Elo

  // ---------------------------------------------------------------------
  // Selection
  // ---------------------------------------------------------------------

  /** The query's filter: a winner, both sides confirmed, not doubles */
  predicate Selected(players: Roster, m: Match) {
    m.winner.Some? && MatchConfirmed(players, m) && !m.isDouble
  }

  function Select(players: Roster, ms: seq<Match>): (r: seq<Match>)
    ensures forall x :: x in r <==> x in ms && Selected(players, x)
    ensures multiset(r) <= multiset(ms)
    ensures |r| <= |ms|
    decreases |ms|
  {
    if |ms| == 0 then []
    else
      var init := ms[..|ms| - 1];
      var last := ms[|ms| - 1];
      assert ms == init + [last];
      if Selected(players, last) then Select(players, init) + [last] else Select(players, init)
  }

  // ---------------------------------------------------------------------
  // Chronological order: order_by('date_played', 'created_at')
  // ---------------------------------------------------------------------

  predicate Before(a: Match, b: Match) {
    a.datePlayed < b.datePlayed || (a.datePlayed == b.datePlayed && a.createdAt <= b.createdAt)
  }

  predicate Chronological(s: seq<Match>) {
    forall i, j :: 0 <= i < j < |s| ==> Before(s[i], s[j])
  }

  /** Places `x` after every match not later than it */
  function Insert(x: Match, s: seq<Match>): (r: seq<Match>)
    requires Chronological(s)
    ensures Chronological(r)
    ensures multiset(r) == multiset(s) + multiset{x}
    ensures |r| == |s| + 1
    decreases |s|
  {
    if |s| == 0 then [x]
    else if Before(x, s[0]) then
      PrependEarliest(x, s);
      [x] + s
    else
      var rest := Insert(x, s[1..]);
      assert s == [s[0]] + s[1..];
      EarliestOfInsert(x, s, rest);
      PrependEarliest(s[0], rest);
      [s[0]] + rest
  }

  /** Prepending a match no later than everything in a chronological sequence keeps it chronological */
  lemma PrependEarliest(h: Match, s: seq<Match>)
    requires Chronological(s)
    requires |s| > 0 ==> Before(h, s[0])
    ensures Chronological([h] + s)
  {
  }

  /** The head of `s` comes no later than `x` inserted into the rest of `s` */
  lemma EarliestOfInsert(x: Match, s: seq<Match>, rest: seq<Match>)
    requires |s| > 0 && Chronological(s) && !Before(x, s[0])
    requires Chronological(rest) && |rest| > 0
    requires multiset(rest) == multiset(s[1..]) + multiset{x}
    ensures Before(s[0], rest[0])
  {
    assert rest[0] in multiset(rest);
    if rest[0] != x {
      assert rest[0] in multiset(s[1..]);
      var k :| 0 <= k < |s[1..]| && s[1..][k] == rest[0];
      assert s[k + 1] == rest[0];
    }
  }

  /** Insertion sort by (date played, creation time) */
  function Sort(s: seq<Match>): (r: seq<Match>)
    ensures Chronological(r)
    ensures multiset(r) == multiset(s)
    ensures |r| == |s|
    decreases |s|
  {
    if |s| == 0 then []
    else
      assert s == s[..|s| - 1] + [s[|s| - 1]];
      Insert(s[|s| - 1], Sort(s[..|s| - 1]))
  }

  /** The matches the command replays, in the order it replays them */
  function ReplayOrder(players: Roster, ms: seq<Match>): (r: seq<Match>)
    ensures Chronological(r)
    ensures forall x :: x in r <==> x in ms && Selected(players, x)
    ensures |r| <= |ms|
  {
    var sel := Select(players, ms);
    var r := Sort(sel);
    assert forall x :: x in r <==> x in multiset(sel);
    r
  }

  // ---------------------------------------------------------------------
  // Distinct match ids survive selection and sorting
  // ---------------------------------------------------------------------

  predicate DistinctIds(s: seq<Match>) {
    forall i, j :: 0 <= i < j < |s| ==> s[i].id != s[j].id
  }

  /** Two copies of the same match have the same id, so distinct ids mean no repeated match */
  lemma DistinctIdsCountOnce(s: seq<Match>, x: Match)
    requires DistinctIds(s)
    ensures multiset(s)[x] <= 1
    decreases |s|
  {
    if |s| > 0 {
      var init := s[..|s| - 1];
      assert s == init + [s[|s| - 1]];
      DistinctIdsCountOnce(init, x);
      if s[|s| - 1] == x {
        assert forall i :: 0 <= i < |init| ==> init[i].id != x.id;
        assert x !in init;
      }
    }
  }

  /** A permutation of a sequence with distinct ids has distinct ids */
  lemma DistinctIdsPermutation(s: seq<Match>, t: seq<Match>)
    requires DistinctIds(s)
    requires multiset(t) <= multiset(s)
    ensures DistinctIds(t)
  {
    forall i, j | 0 <= i < j < |t|
      ensures t[i].id != t[j].id
    {
      if t[i].id == t[j].id {
        assert t[i] in multiset(s) && t[j] in multiset(s);
        var a :| 0 <= a < |s| && s[a] == t[i];
        var b :| 0 <= b < |s| && s[b] == t[j];
        if t[i] == t[j] {
          var before := t[..j];
          assert t == before + [t[j]] + t[j + 1..];
          assert t[i] in before;
          assert multiset(t)[t[j]] >= 2 by {
            assert multiset(before)[t[j]] >= 1;
          }
          DistinctIdsCountOnce(s, t[j]);
        }
      }
    }
  }

  lemma ReplayOrderDistinct(players: Roster, ms: seq<Match>)
    requires DistinctIds(ms)
    ensures DistinctIds(ReplayOrder(players, ms))
  {
    DistinctIdsPermutation(ms, ReplayOrder(players, ms));
  }

  // ---------------------------------------------------------------------
  // Reset and replay
  // ---------------------------------------------------------------------

  const InitialRating: int := 1500

  /** Every player back to rating 1500, peak 1500, no rated matches; history emptied */
  function Reset(l: Ledger): (r: Ledger)
    ensures r.history == []
    ensures r.players.Keys == l.players.Keys
    ensures forall p :: p in r.players ==> r.players[p].elo == EloState(InitialRating, InitialRating, 0)
    ensures SameProfiles(r.players, l.players)
  {
    Ledger(map p | p in l.players :: WithElo(l.players[p], EloState(InitialRating, InitialRating, 0)), [])
  }

  /** Applies the Elo update to each match in turn, first to last */
  function Fold(E: (int, int) -> real, ms: seq<Match>, l: Ledger): (r: Ledger)
    requires forall i :: 0 <= i < |ms| ==> Playable(ms[i], l.players)
    ensures SameProfiles(r.players, l.players)
    decreases |ms|
  {
    if |ms| == 0 then l
    else
      var prev := Fold(E, ms[..|ms| - 1], l);
      var x := ms[|ms| - 1];
      assert Playable(x, l.players);
      assert prev.players.Keys == l.players.Keys;
      ApplyElo(E, x, prev)
  }

  /** The command's report and resulting state */
  datatype Outcome = Outcome(count: nat, ledger: Ledger)

  /** Everything the replay needs from the stored data: unique match ids and known first players */
  predicate Replayable(players: Roster, ms: seq<Match>) {
    && DistinctIds(ms)
    && forall x :: x in ms && Selected(players, x) ==> Playable(x, players)
  }

  /** `Command.handle` */
  function Recalculate(E: (int, int) -> real, ms: seq<Match>, l: Ledger, dryRun: bool): (r: Outcome)
    requires Replayable(l.players, ms)
    ensures r.count == |ReplayOrder(l.players, ms)|
    ensures dryRun ==> r.ledger == l
  {
    var order := ReplayOrder(l.players, ms);
    if dryRun then Outcome(|order|, l)
    else
      var start := Reset(l);
      assert forall i :: 0 <= i < |order| ==> Playable(order[i], start.players) by {
        forall i | 0 <= i < |order| ensures Playable(order[i], start.players) {
          assert order[i] in order;
        }
      }
      Outcome(|order|, Fold(E, order, start))
  }

  // ---------------------------------------------------------------------
  // What the replay guarantees
  // ---------------------------------------------------------------------

  /** `p` is the first player of one of the two sides */
  predicate IsLead(x: Match, p: PlayerId) {
    (|x.side1.players| > 0 && x.side1.players[0] == p) || (|x.side2.players| > 0 && x.side2.players[0] == p)
  }

  /** The number of matches in `ms` in which `p` is one of the two first players */
  function Appearances(ms: seq<Match>, p: PlayerId): (n: nat)
    ensures n <= |ms|
    decreases |ms|
  {
    if |ms| == 0 then 0
    else Appearances(ms[..|ms| - 1], p) + (if IsLead(ms[|ms| - 1], p) then 1 else 0)
  }

  /** Each rated match adds one to the rated count of each of its first players */
  lemma ApplyEloCountsMatch(E: (int, int) -> real, x: Match, l: Ledger)
    requires Guard(x, l).None? && Playable(x, l.players)
    ensures forall p :: p in l.players ==>
      ApplyElo(E, x, l).players[p].elo.rated == l.players[p].elo.rated + (if IsLead(x, p) then 1 else 0)
  {
    var r := ApplyElo(E, x, l);
    var c := Deltas(E, x, l.players);
    var p1, p2 := Lead(x, One), Lead(x, Two);
    assert r.players[p2].elo == Bump(l.players[p2].elo, c.d2);
    assert r.players[p1].elo == Bump(l.players[p1].elo, c.d1) || p1 == p2;
  }

  /** Every row of `history` pairs up with the match at half its position */
  predicate RowsFollow(ms: seq<Match>, history: seq<HistoryRow>) {
    && |history| == 2 * |ms|
    && forall i :: 0 <= i < |ms| ==> history[2 * i].matchId == ms[i].id && history[2 * i + 1].matchId == ms[i].id
  }

  /** A match whose id differs from every earlier one has no rows yet */
  lemma FreshIdNotRated(init: seq<Match>, x: Match, history: seq<HistoryRow>)
    requires RowsFollow(init, history)
    requires forall i :: 0 <= i < |init| ==> init[i].id != x.id
    ensures !Rated(history, x.id)
  {
    forall k | 0 <= k < |history|
      ensures history[k].matchId != x.id
    {
      var i := k / 2;
      assert k == 2 * i || k == 2 * i + 1;
      assert history[k].matchId == init[i].id;
    }
  }

  /** Appending a match's two rows extends the pairing */
  lemma RowsFollowStep(E: (int, int) -> real, init: seq<Match>, x: Match, l: Ledger)
    requires RowsFollow(init, l.history)
    requires Guard(x, l).None? && Playable(x, l.players)
    ensures RowsFollow(init + [x], ApplyElo(E, x, l).history)
  {
    var r := ApplyElo(E, x, l);
    var ms := init + [x];
    forall i | 0 <= i < |ms|
      ensures r.history[2 * i].matchId == ms[i].id && r.history[2 * i + 1].matchId == ms[i].id
    {
      if i < |init| {
        assert r.history[2 * i] == l.history[2 * i];
        assert r.history[2 * i + 1] == l.history[2 * i + 1];
      }
    }
  }

  /** The replay invariant after any prefix of a well-formed order */
  predicate ReplayedFrom(ms: seq<Match>, start: Ledger, r: Ledger) {
    && RowsFollow(ms, r.history)
    && r.players.Keys == start.players.Keys
    && (forall p :: p in r.players ==> r.players[p].elo.rated == start.players[p].elo.rated + Appearances(ms, p))
    && (PeaksValid(start.players) ==> PeaksValid(r.players))
  }

  /**
   * Replaying an order of selected matches with distinct ids onto an empty
   * history never trips the "already rated" guard: every match adds its two
   * rows, every first player's rated count grows by the number of matches
   * they play, and peaks stay at or above ratings.
   */
  lemma {:induction false} FoldReplaysAll(E: (int, int) -> real, ms: seq<Match>, start: Ledger)
    requires start.history == []
    requires DistinctIds(ms)
    requires forall i :: 0 <= i < |ms| ==> Playable(ms[i], start.players) && Selected(start.players, ms[i])
    ensures ReplayedFrom(ms, start, Fold(E, ms, start))
    decreases |ms|
  {
    if |ms| > 0 {
      var init := ms[..|ms| - 1];
      var x := ms[|ms| - 1];
      assert ms == init + [x];
      var prev := Fold(E, init, start);
      FoldReplaysAll(E, init, start);
      assert Fold(E, ms, start) == ApplyElo(E, x, prev);
      GuardPasses(init, x, start, prev);
      ReplayStep(E, init, x, start, prev);
    } else {
      assert Fold(E, ms, start) == start;
    }
  }

  /** The next match of a distinct-id order of selected matches passes the guard */
  lemma GuardPasses(init: seq<Match>, x: Match, start: Ledger, prev: Ledger)
    requires ReplayedFrom(init, start, prev) && SameProfiles(prev.players, start.players)
    requires DistinctIds(init + [x])
    requires Playable(x, start.players) && Selected(start.players, x)
    ensures Playable(x, prev.players)
    ensures Guard(x, prev).None?
  {
    SameProfilesSameAccounts(prev.players, start.players);
    SameAccountsSameConfirmation(prev.players, start.players, x);
    var ms := init + [x];
    forall i | 0 <= i < |init| ensures init[i].id != x.id {
      assert ms[i].id != ms[|ms| - 1].id;
    }
    FreshIdNotRated(init, x, prev.history);
  }

  /** Replaying one more match that passes the guard extends the invariant */
  lemma ReplayStep(E: (int, int) -> real, init: seq<Match>, x: Match, start: Ledger, prev: Ledger)
    requires ReplayedFrom(init, start, prev)
    requires Guard(x, prev).None? && Playable(x, prev.players)
    ensures ReplayedFrom(init + [x], start, ApplyElo(E, x, prev))
  {
    var ms := init + [x];
    assert ms[..|ms| - 1] == init;
    RowsFollowStep(E, init, x, prev);
    ApplyEloCountsMatch(E, x, prev);
    if PeaksValid(start.players) {
      ApplyEloKeepsPeaks(E, x, prev);
    }
  }

  /** A reset ledger satisfies every peak bound */
  lemma ResetPeaksValid(l: Ledger)
    ensures PeaksValid(Reset(l).players)
  {
  }

  /**
   * After a real run: the history holds two rows for every selected match,
   * in replay order; each player's rated count is the number of selected
   * matches they played; and every peak is at least the rating.
   */
  lemma RecalculateReplaysEverything(E: (int, int) -> real, ms: seq<Match>, l: Ledger)
    requires Replayable(l.players, ms)
    ensures var order := ReplayOrder(l.players, ms);
      var r := Recalculate(E, ms, l, false).ledger;
      && RowsFollow(order, r.history)
      && r.players.Keys == l.players.Keys
      && (forall p :: p in r.players ==> r.players[p].elo.rated == Appearances(order, p))
      && PeaksValid(r.players)
  {
    var order := ReplayOrder(l.players, ms);
    var start := Reset(l);
    ReplayOrderDistinct(l.players, ms);
    SameProfilesSameAccounts(start.players, l.players);
    forall i | 0 <= i < |order|
      ensures Playable(order[i], start.players) && Selected(start.players, order[i])
    {
      assert order[i] in order;
      SameAccountsSameConfirmation(start.players, l.players, order[i]);
    }
    FoldReplaysAll(E, order, start);
    ResetPeaksValid(l);
  }

  /** Rosters that differ only in Elo fields reset to the same roster */
  lemma ResetForgetsElo(a: Ledger, b: Ledger)
    requires SameProfiles(a.players, b.players)
    ensures Reset(a) == Reset(b)
  {
    var ra, rb := Reset(a), Reset(b);
    assert forall p :: p in ra.players ==> ra.players[p] == rb.players[p];
    assert ra.players == rb.players;
  }

  /** Running the command twice gives the same ratings and history as running it once */
  lemma RecalculateIdempotent(E: (int, int) -> real, ms: seq<Match>, l: Ledger)
    requires Replayable(l.players, ms)
    ensures Replayable(Recalculate(E, ms, l, false).ledger.players, ms)
    ensures Recalculate(E, ms, Recalculate(E, ms, l, false).ledger, false) == Recalculate(E, ms, l, false)
  {
    var l2 := Recalculate(E, ms, l, false).ledger;
    var start := Reset(l);
    assert SameProfiles(l2.players, start.players);
    SameProfilesSameAccounts(l2.players, l.players);
    assert forall x :: Selected(l2.players, x) == Selected(l.players, x) by {
      forall x ensures Selected(l2.players, x) == Selected(l.players, x) {
        SameAccountsSameConfirmation(l2.players, l.players, x);
      }
    }
    assert Select(l2.players, ms) == Select(l.players, ms) by {
      SelectRespectsAccounts(l2.players, l.players, ms);
    }
    ResetForgetsElo(l2, l);
  }

  lemma {:induction false} SelectRespectsAccounts(a: Roster, b: Roster, ms: seq<Match>)
    requires forall x :: Selected(a, x) == Selected(b, x)
    ensures Select(a, ms) == Select(b, ms)
    decreases |ms|
  {
    if |ms| > 0 {
      SelectRespectsAccounts(a, b, ms[..|ms| - 1]);
    }
  }
}

=== FILE: rounding.dfy ===
/**
 * Python's built-in `round` on a number, returning an integer: round to the
 * nearest integer, and on an exact half to the even neighbour.
 */
module Rounding {

  /** Fractional part of `x`, in [0, 1) */
  function Frac(x: real): (f: real)
    ensures 0.0 <= f < 1.0
    ensures x == x.Floor as real + f
  {
    x - x.Floor as real
  }

  function RoundHalfEven(x: real): (n: int)
    ensures -0.5 <= n as real - x <= 0.5
    ensures x >= 0.0 ==> n >= 0
    ensures x <= 0.0 ==> n <= 0
    ensures Frac(x) == 0.5 ==> n % 2 == 0
  {
    var f := x.Floor;
    var t := Frac(x);
    if t < 0.5 then f
    else if t > 0.5 then f + 1
    else if f % 2 == 0 then f
    else f + 1
  }

  /** The floor of a negated non-integer is one below the negated floor */
  lemma FloorOfNegation(x: real)
    ensures Frac(x) == 0.0 ==> (-x).Floor == -x.Floor
    ensures Frac(x) > 0.0 ==> (-x).Floor == -x.Floor - 1
  {
    var f := x.Floor;
    var g := (-x).Floor;
    assert g as real <= -x < g as real + 1.0;
    assert f as real <= x < f as real + 1.0;
    if Frac(x) == 0.0 {
      assert x == f as real;
    } else {
      assert -x < -(f as real);
      assert -(f as real) - 1.0 < -x;
    }
  }

  /** Python's `round` is symmetric about zero: `round(-x) == -round(x)` */
  lemma RoundNegation(x: real)
    ensures RoundHalfEven(-x) == -RoundHalfEven(x)
  {
    FloorOfNegation(x);
    var f := x.Floor;
    if Frac(x) > 0.0 {
      assert Frac(-x) == 1.0 - Frac(x);
    }
  }
}

=== FILE: scoring.dfy ===
/**
 * Game and match outcome (models.py): the winner of a game, each side's
 * game count, the games-to-win threshold and the match winner recomputed on
 * every save; plus the input validation of forms.py and the next game number
 * chosen by the game-creation view.
 */
module Scoring {
  import opened Wrappers
  import opened Domain

  // ---------------------------------------------------------------------
  // Player display
  // ---------------------------------------------------------------------

  /** `Player.__str__`: the nickname when one is set, the name otherwise */
  function DisplayName(p: Player): (s: string)
    ensures p.nickname != "" ==> s == p.nickname
    ensures p.nickname == "" ==> s == p.name
  {
    if p.nickname != "" then p.nickname else p.name
  }

  // ---------------------------------------------------------------------
  // Game.save
  // ---------------------------------------------------------------------

  /**
   * `Game.save`: the side with the strictly higher score becomes the game's
   * winner. On a tie the stored winner is left as it was.
   */
  function SaveGame(g: Game): (r: Game)
    ensures r.winner == Some(One) <==> g.score1 > g.score2 || (g.score1 == g.score2 && g.winner == Some(One))
    ensures r.winner == Some(Two) <==> g.score2 > g.score1 || (g.score1 == g.score2 && g.winner == Some(Two))
    ensures g.score1 == g.score2 ==> r.winner == g.winner
    ensures r.(winner := g.winner) == g
  {
    if g.score1 > g.score2 then g.(winner := Some(One))
    else if g.score2 > g.score1 then g.(winner := Some(Two))
    else g
  }

  // ---------------------------------------------------------------------
  // Game counts (Match.player1_score / player2_score)
  // ---------------------------------------------------------------------

  /** Number of games whose stored winner is side `t` */
  function Wins(games: seq<Game>, t: SideTag): (n: nat)
    ensures n <= |games|
    decreases |games|
  {
    if |games| == 0 then 0
    else Wins(games[..|games| - 1], t) + (if games[|games| - 1].winner == Some(t) then 1 else 0)
  }

  /** Positions of the games won by side `t`: an independent reading of `Wins` */
  function WonAt(games: seq<Game>, t: SideTag): set<nat> {
    set i: nat | i < |games| && games[i].winner == Some(t)
  }

  /** The side's score is exactly the number of games it won */
  lemma {:induction false} WinsCountsWonGames(games: seq<Game>, t: SideTag)
    ensures Wins(games, t) == |WonAt(games, t)|
    decreases |games|
  {
    if |games| > 0 {
      var init := games[..|games| - 1];
      WinsCountsWonGames(init, t);
      var last := |games| - 1;
      if games[last].winner == Some(t) {
        assert WonAt(games, t) == WonAt(init, t) + {last};
      } else {
        assert WonAt(games, t) == WonAt(init, t);
      }
    }
  }

  /** A game is won by at most one side, so the two scores never exceed the number of games */
  lemma {:induction false} ScoresBoundedByGames(games: seq<Game>)
    ensures Wins(games, One) + Wins(games, Two) <= |games|
    decreases |games|
  {
    if |games| > 0 {
      ScoresBoundedByGames(games[..|games| - 1]);
    }
  }

  /** Adding a game raises the score of the side that won it by one and leaves the other's */
  lemma AppendGameWins(games: seq<Game>, g: Game, t: SideTag)
    ensures Wins(games + [g], t) == Wins(games, t) + (if g.winner == Some(t) then 1 else 0)
  {
    assert (games + [g])[..|games|] == games;
  }

  /** `Match.player1_score` and `player2_score` */
  function Score(m: Match, t: SideTag): nat {
    Wins(m.games, t)
  }

  // ---------------------------------------------------------------------
  // Match.save
  // ---------------------------------------------------------------------

  /** `best_of // 2 + 1` (floor division; Dafny's `/` agrees for a positive divisor) */
  function GamesToWin(bestOf: int): (k: int)
    ensures bestOf >= 0 ==> 2 * k > bestOf && k >= 1
    ensures bestOf >= 0 && bestOf % 2 == 1 ==> k == (bestOf + 1) / 2
    ensures bestOf >= 0 ==> 2 * (k - 1) <= bestOf
  {
    bestOf / 2 + 1
  }

  /** Side `t` has won enough games to take the match */
  predicate Reached(m: Match, t: SideTag) {
    Score(m, t) >= GamesToWin(m.bestOf)
  }

  /**
   * `Match.save`: for a match that already exists, side one wins once it
   * reaches the threshold, otherwise side two does; when neither has, the
   * stored winner is kept (it is never cleared). A match being created has
   * no games yet and keeps its winner field.
   */
  function SaveMatch(m: Match): (r: Match)
    ensures r.(winner := m.winner) == m
    ensures !m.saved ==> r == m
    ensures m.saved && Reached(m, One) ==> r.winner == Some(One)
    ensures m.saved && !Reached(m, One) && Reached(m, Two) ==> r.winner == Some(Two)
    ensures !Reached(m, One) && !Reached(m, Two) ==> r.winner == m.winner
  {
    if !m.saved then m
    else if Score(m, One) >= GamesToWin(m.bestOf) then m.(winner := Some(One))
    else if Score(m, Two) >= GamesToWin(m.bestOf) then m.(winner := Some(Two))
    else m
  }

  /**
   * With no more decided games than `best_of`, the two sides cannot both
   * reach the threshold, so checking side one first never overrides a
   * legitimate side-two win.
   */
  lemma AtMostOneSideReaches(m: Match)
    requires m.bestOf >= 0
    requires |m.games| <= m.bestOf
    ensures !(Reached(m, One) && Reached(m, Two))
  {
    ScoresBoundedByGames(m.games);
  }

  /** Saving a match never clears a winner that was already stored */
  lemma SaveMatchKeepsWinner(m: Match)
    requires m.winner.Some?
    ensures SaveMatch(m).winner.Some?
  {
  }

  /** A winner set by a save is a side that has reached the threshold */
  lemma SaveMatchWinnerJustified(m: Match)
    requires m.winner.None?
    requires SaveMatch(m).winner.Some?
    ensures m.saved && Reached(m, SaveMatch(m).winner.value)
  {
  }

  /** Saving is idempotent: a second save changes nothing */
  lemma SaveMatchIdempotent(m: Match)
    ensures SaveMatch(SaveMatch(m)) == SaveMatch(m)
  {
  }

  // ---------------------------------------------------------------------
  // Forms
  // ---------------------------------------------------------------------

  datatype FormError = TiedGame | NotWonByTwo | SamePlayers

  /**
   * `GameForm.clean`: when both scores are present, a tie is rejected, and
   * once both sides have reached 10 the winner must lead by two. The
   * 11-point minimum is not checked.
   */
  function CleanGameScores(s1: Option<int>, s2: Option<int>): (r: Option<FormError>)
    ensures (s1.None? || s2.None?) ==> r.None?
    ensures s1.Some? && s2.Some? && s1.value == s2.value ==> r == Some(TiedGame)
    ensures r == Some(NotWonByTwo) <==>
      s1.Some? && s2.Some? && s1.value != s2.value && s1.value >= 10 && s2.value >= 10
      && -2 < s1.value - s2.value < 2
    ensures r.None? <==>
      s1.None? || s2.None? ||
      (s1.value != s2.value && (s1.value < 10 || s2.value < 10 || s1.value - s2.value >= 2 || s2.value - s1.value >= 2))
  {
    if s1.Some? && s2.Some? then
      var a, b := s1.value, s2.value;
      if a == b then Some(TiedGame)
      else if a >= 10 && b >= 10 && Abs(a - b) < 2 then Some(NotWonByTwo)
      else None
    else None
  }

  function Abs(x: int): (r: nat)
    ensures r == x || r == -x
  {
    if x < 0 then -x else x
  }

  /** A score pair that passes validation always has a strict winner, so `Game.save` assigns one */
  lemma CleanScoresDecideGame(g: Game)
    requires CleanGameScores(Some(g.score1), Some(g.score2)).None?
    ensures SaveGame(g).winner.Some?
    ensures SaveGame(g).winner == Some(if g.score1 > g.score2 then One else Two)
  {
  }

  /** `MatchForm.clean`: the two chosen players must differ when both are given */
  function CleanMatchPlayers(p1: Option<PlayerId>, p2: Option<PlayerId>): (r: Option<FormError>)
    ensures r == Some(SamePlayers) <==> p1.Some? && p2.Some? && p1.value == p2.value
    ensures r.None? || r == Some(SamePlayers)
  {
    if p1.Some? && p2.Some? && p1.value == p2.value then Some(SamePlayers) else None
  }

  /** The fields exposed by `MatchEditForm` */
  const EditableFields: set<string> := {"location", "notes"}

  /**
   * Saving `MatchEditForm`: only the location and notes can change; the
   * rosters, games, winner and confirmations of a completed match are kept.
   */
  function EditMatch(m: Match, location: Option<LocationId>, notes: string): (r: Match)
    ensures r.location == location && r.notes == notes
    ensures r.(location := m.location, notes := m.notes) == m
    ensures r.winner == m.winner && r.games == m.games && r.confirmations == m.confirmations
  {
    m.(location := location, notes := notes)
  }

  // ---------------------------------------------------------------------
  // Game numbering (GameCreateView)
  // ---------------------------------------------------------------------

  /** The highest existing game number plus one, or 1 for a match without games */
  function NextGameNumber(games: seq<Game>): (n: int)
    ensures |games| == 0 ==> n == 1
    ensures forall i :: 0 <= i < |games| ==> games[i].number < n
    ensures |games| > 0 ==> exists i :: 0 <= i < |games| && games[i].number == n - 1
    decreases |games|
  {
    if |games| == 0 then 1
    else
      var rest := NextGameNumber(games[..|games| - 1]);
      var here := games[|games| - 1].number + 1;
      if |games| == 1 || here > rest then here else rest
  }

  /** Game numbers are unique within a match (`unique_together`) */
  predicate DistinctNumbers(games: seq<Game>) {
    forall i, j :: 0 <= i < j < |games| ==> games[i].number != games[j].number
  }

  predicate HasNumber(games: seq<Game>, n: int) {
    exists i :: 0 <= i < |games| && games[i].number == n
  }
}

=== FILE: stats.dfy ===
/**
 * The statistics computed by the views (views.py): a player's record and
 * win/loss streaks, the per-game head-to-head tallies, and the
 * participation check of the match-creation view.
 */
module Stats {
  import opened Wrappers
  import opened Domain
  import opened Scoring

  // ---------------------------------------------------------------------
  // Outcomes from one player's point of view
  // ---------------------------------------------------------------------

  datatype Outcome = Won | Lost | Undecided

  /** A match won by the player's side, won by the other side, or without a winner */
  function OutcomeFor(m: Match, p: PlayerId): (o: Outcome)
    ensures o == Undecided <==> m.winner.None?
    ensures o == Won <==> m.winner.Some? && m.SideOf(m.winner.value).Has(p)
  {
    match m.winner
    case None => Undecided
    case Some(t) => if m.SideOf(t).Has(p) then Won else Lost
  }

  function Max(a: int, b: int): int {
    if a >= b then a else b
  }

  // ---------------------------------------------------------------------
  // Reference definitions of streaks
  // ---------------------------------------------------------------------

  /** The last win or loss, skipping matches without a winner */
  function LastDecided(s: seq<Outcome>): (r: Option<Outcome>)
    ensures r.None? || r == Some(Won) || r == Some(Lost)
    ensures r.None? <==> forall i :: 0 <= i < |s| ==> s[i] == Undecided
    decreases |s|
  {
    if |s| == 0 then None
    else if s[|s| - 1] == Undecided then LastDecided(s[..|s| - 1])
    else if s[|s| - 1] == Won then Some(Won)
    else Some(Lost)
  }

  /** Length of the final run of `o`; undecided matches neither extend nor break it */
  function Trailing(s: seq<Outcome>, o: Outcome): (n: nat)
    requires o != Undecided
    ensures n <= |s|
    ensures LastDecided(s) != Some(o) ==> n == 0
    ensures LastDecided(s) == Some(o) ==> n >= 1
    decreases |s|
  {
    if |s| == 0 then 0
    else if s[|s| - 1] == Undecided then Trailing(s[..|s| - 1], o)
    else if s[|s| - 1] == o then Trailing(s[..|s| - 1], o) + 1
    else 0
  }

  /** Length of the longest run of `o`: the longest final run of any prefix */
  function MaxRun(s: seq<Outcome>, o: Outcome): (n: nat)
    requires o != Undecided
    ensures Trailing(s, o) <= n <= |s|
    decreases |s|
  {
    if |s| == 0 then 0
    else Max(MaxRun(s[..|s| - 1], o), Trailing(s, o))
  }

  /** `MaxRun` bounds the final run of every prefix and equals that of some prefix */
  lemma {:induction false} MaxRunIsLongest(s: seq<Outcome>, o: Outcome)
    requires o != Undecided
    ensures forall k :: 0 <= k <= |s| ==> Trailing(s[..k], o) <= MaxRun(s, o)
    ensures exists k :: 0 <= k <= |s| && Trailing(s[..k], o) == MaxRun(s, o)
    decreases |s|
  {
    if |s| == 0 {
      assert s[..0] == s;
    } else {
      var init := s[..|s| - 1];
      MaxRunIsLongest(init, o);
      forall k | 0 <= k <= |s|
        ensures Trailing(s[..k], o) <= MaxRun(s, o)
      {
        if k < |s| {
          assert s[..k] == init[..k];
        } else {
          assert s[..k] == s;
        }
      }
      if MaxRun(s, o) == Trailing(s, o) {
        assert s[..|s|] == s;
      } else {
        var k :| 0 <= k <= |init| && Trailing(init[..k], o) == MaxRun(init, o);
        assert s[..k] == init[..k];
      }
    }
  }

  // ---------------------------------------------------------------------
  // The streak fold of the player page
  // ---------------------------------------------------------------------

  /**
   * The loop of `PlayerDetailView.get_context_data`, over the player's
   * outcomes in the order the matches are listed. That order is newest
   * first (`order_by("-date_played")`), so the "current" streak the loop
   * leaves behind is the final run in that order: the run of the OLDEST
   * decided matches. The longest streaks are the longest runs; matches
   * without a winner are skipped.
   */
  method Streaks(s: seq<Outcome>) returns (current: nat, kind: Option<Outcome>, longestWin: nat, longestLoss: nat)
    ensures kind == LastDecided(s)
    ensures kind.None? ==> current == 0
    ensures kind.Some? ==> current == Trailing(s, kind.value)
    ensures longestWin == MaxRun(s, Won)
    ensures longestLoss == MaxRun(s, Lost)
  {
    current, kind, longestWin, longestLoss := 0, None, 0, 0;
    var tempWin, tempLoss := 0, 0;
    var i := 0;
    while i < |s|
      invariant 0 <= i <= |s|
      invariant kind == LastDecided(s[..i])
      invariant tempWin == Trailing(s[..i], Won) && tempLoss == Trailing(s[..i], Lost)
      invariant current == (if kind == Some(Won) then tempWin else tempLoss)
      invariant Max(longestWin, tempWin) == MaxRun(s[..i], Won)
      invariant Max(longestLoss, tempLoss) == MaxRun(s[..i], Lost)
    {
      var o := s[i];
      assert s[..i + 1][..i] == s[..i];
      if o == Won {
        if kind == Some(Lost) || kind.None? {
          if kind == Some(Lost) {
            longestLoss := Max(longestLoss, tempLoss);
            tempLoss := 0;
          }
          current, kind, tempWin := 1, Some(Won), 1;
        } else {
          current, tempWin := current + 1, tempWin + 1;
        }
      } else if o == Lost {
        if kind == Some(Won) || kind.None? {
          if kind == Some(Won) {
            longestWin := Max(longestWin, tempWin);
            tempWin := 0;
          }
          current, kind, tempLoss := 1, Some(Lost), 1;
        } else {
          current, tempLoss := current + 1, tempLoss + 1;
        }
      }
      i := i + 1;
    }
    assert s[..i] == s;
    if kind == Some(Won) {
      longestWin := Max(longestWin, tempWin);
    } else if kind == Some(Lost) {
      longestLoss := Max(longestLoss, tempLoss);
    }
  }

  // ---------------------------------------------------------------------
  // The current streak, read from the newest match
  // ---------------------------------------------------------------------

  /** The most recent win or loss of a newest-first list, skipping matches without a winner */
  function FirstDecided(s: seq<Outcome>): (r: Option<Outcome>)
    ensures r.None? || r == Some(Won) || r == Some(Lost)
    ensures r.None? <==> forall i :: 0 <= i < |s| ==> s[i] == Undecided
    decreases |s|
  {
    if |s| == 0 then None
    else if s[0] == Undecided then FirstDecided(s[1..])
    else if s[0] == Won then Some(Won)
    else Some(Lost)
  }

  /** Length of the run of `o` at the front of a newest-first list: the streak still going on */
  function Leading(s: seq<Outcome>, o: Outcome): (n: nat)
    requires o != Undecided
    ensures n <= |s|
    ensures FirstDecided(s) != Some(o) ==> n == 0
    ensures FirstDecided(s) == Some(o) ==> n >= 1
    decreases |s|
  {
    if |s| == 0 then 0
    else if s[0] == Undecided then Leading(s[1..], o)
    else if s[0] == o then Leading(s[1..], o) + 1
    else 0
  }

  function Reverse(s: seq<Outcome>): (r: seq<Outcome>)
    ensures |r| == |s|
    ensures forall i :: 0 <= i < |s| ==> r[i] == s[|s| - 1 - i]
    decreases |s|
  {
    if |s| == 0 then [] else Reverse(s[1..]) + [s[0]]
  }

  /** Reading a list backwards turns its final run into its leading run */
  lemma {:induction false} ReverseSwapsEnds(s: seq<Outcome>, o: Outcome)
    requires o != Undecided
    ensures LastDecided(Reverse(s)) == FirstDecided(s)
    ensures Trailing(Reverse(s), o) == Leading(s, o)
    decreases |s|
  {
    if |s| > 0 {
      var r := Reverse(s);
      ReverseSwapsEnds(s[1..], o);
      assert r[..|r| - 1] == Reverse(s[1..]);
      assert r[|r| - 1] == s[0];
    }
  }

  /**
   * The streak loop on a newest-first list reports the run of the oldest
   * matches: after win, win, loss (newest first) the page shows one loss,
   * while the player's most recent results are two wins.
   */
  lemma ListedStreakIsOldestRun()
    ensures var s := [Won, Won, Lost];
      && LastDecided(s) == Some(Lost) && Trailing(s, Lost) == 1
      && FirstDecided(s) == Some(Won) && Leading(s, Won) == 2
  {
  }

  /**
   * The corrected current streak: the same loop run over the list oldest
   * first, so it ends on the newest match. It is the run at the front of
   * the newest-first list. The longest streaks need no correction, since a
   * run read backwards is still a run.
   */
  method CurrentStreak(s: seq<Outcome>) returns (current: nat, kind: Option<Outcome>)
    ensures kind == FirstDecided(s)
    ensures kind.None? ==> current == 0
    ensures kind.Some? ==> current == Leading(s, kind.value)
  {
    var longestWin, longestLoss;
    current, kind, longestWin, longestLoss := Streaks(Reverse(s));
    ReverseSwapsEnds(s, Won);
    ReverseSwapsEnds(s, Lost);
  }

  // ---------------------------------------------------------------------
  // Wins, losses and win rate
  // ---------------------------------------------------------------------

  function Count(s: seq<Outcome>, o: Outcome): (n: nat)
    ensures n <= |s|
    decreases |s|
  {
    if |s| == 0 then 0
    else Count(s[..|s| - 1], o) + (if s[|s| - 1] == o then 1 else 0)
  }

  /** Every outcome is a win, a loss or undecided */
  lemma {:induction false} CountsPartition(s: seq<Outcome>)
    ensures Count(s, Won) + Count(s, Lost) + Count(s, Undecided) == |s|
    decreases |s|
  {
    if |s| > 0 {
      CountsPartition(s[..|s| - 1]);
    }
  }

  datatype Record = Record(total: nat, wins: nat, losses: int, winRate: real)

  /**
   * `total_matches`, `wins`, `losses = total - wins` and the win rate in
   * percent (0 without matches). Matches without a winner therefore count
   * among the losses.
   */
  function PlayerRecord(s: seq<Outcome>): (r: Record)
    ensures r.total == |s| && r.wins == Count(s, Won)
    ensures r.losses == Count(s, Lost) + Count(s, Undecided)
    ensures r.wins + r.losses == r.total
    ensures 0.0 <= r.winRate <= 100.0
    ensures r.total == 0 ==> r == Record(0, 0, 0, 0.0)
    ensures r.total > 0 ==> r.winRate * (r.total as real) == (r.wins as real) * 100.0
  {
    CountsPartition(s);
    var total := |s|;
    var wins := Count(s, Won);
    Record(total, wins, total - wins, WinRate(wins, total))
  }

  /** A confirmed match that is still in progress is counted as a loss */
  lemma UndecidedCountsAsLoss()
    ensures PlayerRecord([Undecided]).losses == 1
    ensures Count([Undecided], Lost) == 0
  {
    assert [Undecided][..0] == [];
  }

  /**
   * The record as the loop's own comment describes a loss (a winner exists
   * and it is not the player): matches without a winner are neither won
   * nor lost.
   */
  function DecidedRecord(s: seq<Outcome>): (r: Record)
    ensures r.total == |s| && r.wins == Count(s, Won) && r.losses == Count(s, Lost)
    ensures r.wins + r.losses + Count(s, Undecided) == r.total
    ensures 0.0 <= r.winRate <= 100.0
    ensures r.total > 0 ==> r.winRate * (r.total as real) == (r.wins as real) * 100.0
  {
    CountsPartition(s);
    Record(|s|, Count(s, Won), Count(s, Lost), WinRate(Count(s, Won), |s|))
  }

  /** Both readings agree exactly when every listed match has a winner */
  lemma RecordsAgreeWhenAllDecided(s: seq<Outcome>)
    ensures PlayerRecord(s) == DecidedRecord(s) <==> Count(s, Undecided) == 0
  {
    CountsPartition(s);
  }

  /** `wins / total * 100 if total > 0 else 0` */
  function WinRate(wins: nat, total: nat): (r: real)
    requires wins <= total
    ensures 0.0 <= r <= 100.0
    ensures total == 0 ==> r == 0.0
    ensures total > 0 ==> r * (total as real) == (wins as real) * 100.0
  {
    if total > 0 then (wins as real) / (total as real) * 100.0 else 0.0
  }

  // ---------------------------------------------------------------------
  // Head-to-head game tallies
  // ---------------------------------------------------------------------

  /** A game's two scores from the requested first player's point of view */
  datatype Points = Points(mine: int, theirs: int) {
    function Diff(): int {
      mine - theirs
    }
  }

  /** The game's scores oriented towards `p1`: swapped when `p1` is not side one's first player */
  function Orient(m: Match, g: Game, p1: PlayerId): (pt: Points)
    ensures |m.side1.players| > 0 && m.side1.players[0] == p1 ==> pt == Points(g.score1, g.score2)
    ensures !(|m.side1.players| > 0 && m.side1.players[0] == p1) ==> pt == Points(g.score2, g.score1)
  {
    if |m.side1.players| > 0 && m.side1.players[0] == p1 then Points(g.score1, g.score2)
    else Points(g.score2, g.score1)
  }

  datatype Tally = Tally(
    total: nat,
    p1Wins: nat,
    p2Wins: nat,
    close: nat,
    p1Dominant: nat,
    p2Dominant: nat,
    p1MaxMargin: nat,
    p2MaxMargin: nat)

  /** Games the requested first player won (a positive difference); ties go to the other player */
  function P1WonAt(pts: seq<Points>): set<nat> {
    set i: nat | i < |pts| && pts[i].Diff() > 0
  }

  function CloseAt(pts: seq<Points>): set<nat> {
    set i: nat | i < |pts| && Abs(pts[i].Diff()) <= 2
  }

  /** Games the requested first player won by at least five points */
  function P1DominantAt(pts: seq<Points>): set<nat> {
    set i: nat | i < |pts| && pts[i].Diff() >= 5
  }

  /** Games the other player won by at least five points */
  function P2DominantAt(pts: seq<Points>): set<nat> {
    set i: nat | i < |pts| && pts[i].Diff() <= -5
  }

  /**
   * The game loop of `HeadToHeadStatsView`: every game goes to exactly one
   * player, close games differ by at most two points, dominant ones by at
   * least five, and the largest winning margin of each player defaults to 0.
   */
  function TallyGames(pts: seq<Points>): (t: Tally)
    ensures t.total == |pts|
    ensures t.p1Wins + t.p2Wins == t.total
    ensures t.close <= t.total && t.p1Dominant + t.p2Dominant <= t.total
    decreases |pts|
  {
    if |pts| == 0 then Tally(0, 0, 0, 0, 0, 0, 0, 0)
    else
      var t := TallyGames(pts[..|pts| - 1]);
      var d := pts[|pts| - 1].Diff();
      Tally(
        t.total + 1,
        t.p1Wins + (if d > 0 then 1 else 0),
        t.p2Wins + (if d > 0 then 0 else 1),
        t.close + (if Abs(d) <= 2 then 1 else 0),
        t.p1Dominant + (if d >= 5 then 1 else 0),
        t.p2Dominant + (if d <= -5 then 1 else 0),
        if d > 0 then Max(t.p1MaxMargin, d) else t.p1MaxMargin,
        if d > 0 then t.p2MaxMargin else Max(t.p2MaxMargin, -d))
  }

  /** Each player's largest margin bounds every game they won and is attained by one, or is 0 */
  lemma {:induction false} TallyMargins(pts: seq<Points>)
    ensures var t := TallyGames(pts);
      && (forall i :: 0 <= i < |pts| && pts[i].Diff() > 0 ==> pts[i].Diff() <= t.p1MaxMargin)
      && (forall i :: 0 <= i < |pts| && pts[i].Diff() <= 0 ==> -pts[i].Diff() <= t.p2MaxMargin)
      && (t.p1MaxMargin == 0 || exists i :: 0 <= i < |pts| && pts[i].Diff() > 0 && pts[i].Diff() == t.p1MaxMargin)
      && (t.p2MaxMargin == 0 || exists i :: 0 <= i < |pts| && pts[i].Diff() <= 0 && -pts[i].Diff() == t.p2MaxMargin)
    decreases |pts|
  {
    if |pts| > 0 {
      var init := pts[..|pts| - 1];
      TallyMargins(init);
      var t0 := TallyGames(init);
      var t := TallyGames(pts);
      var last := |pts| - 1;
      assert forall i :: 0 <= i < |init| ==> pts[i] == init[i];
      if t.p1MaxMargin != 0 && t.p1MaxMargin != t0.p1MaxMargin {
        assert pts[last].Diff() > 0 && pts[last].Diff() == t.p1MaxMargin;
      }
      if t.p2MaxMargin != 0 && t.p2MaxMargin != t0.p2MaxMargin {
        assert pts[last].Diff() <= 0 && -pts[last].Diff() == t.p2MaxMargin;
      }
    }
  }

  /** One more index that is either in the counted set or not: the count grows by one or stays */
  lemma {:induction false} CountStep(a: set<nat>, b: set<nat>, last: nat, counted: bool)
    requires last !in b
    requires forall i :: i in a <==> i in b || (i == last && counted)
    ensures |a| == |b| + (if counted then 1 else 0)
  {
    if counted {
      assert a == b + {last};
    } else {
      assert a == b;
    }
  }

  /** The win count is the number of games with a positive difference */
  lemma {:induction false} TallyCountsWins(pts: seq<Points>)
    ensures TallyGames(pts).p1Wins == |P1WonAt(pts)|
    decreases |pts|
  {
    if |pts| > 0 {
      var init := pts[..|pts| - 1];
      var last := |pts| - 1;
      TallyCountsWins(init);
      var a, b := P1WonAt(pts), P1WonAt(init);
      assert forall i :: 0 <= i < |init| ==> init[i] == pts[i];
      assert forall i :: i in a <==> i in b || (i == last && pts[last].Diff() > 0);
      CountStep(a, b, last, pts[last].Diff() > 0);
    }
  }

  /** The close-game count is the number of games decided by at most two points */
  lemma {:induction false} TallyCountsClose(pts: seq<Points>)
    ensures TallyGames(pts).close == |CloseAt(pts)|
    decreases |pts|
  {
    if |pts| > 0 {
      var init := pts[..|pts| - 1];
      var last := |pts| - 1;
      TallyCountsClose(init);
      var a, b := CloseAt(pts), CloseAt(init);
      assert forall i :: 0 <= i < |init| ==> init[i] == pts[i];
      assert forall i :: i in a <==> i in b || (i == last && Abs(pts[last].Diff()) <= 2);
      CountStep(a, b, last, Abs(pts[last].Diff()) <= 2);
    }
  }

  /** The first player's dominant-game count is the number of games they won by five points or more */
  lemma {:induction false} TallyCountsP1Dominant(pts: seq<Points>)
    ensures TallyGames(pts).p1Dominant == |P1DominantAt(pts)|
    decreases |pts|
  {
    if |pts| > 0 {
      var init := pts[..|pts| - 1];
      var last := |pts| - 1;
      TallyCountsP1Dominant(init);
      var a, b := P1DominantAt(pts), P1DominantAt(init);
      assert forall i :: 0 <= i < |init| ==> init[i] == pts[i];
      assert forall i :: i in a <==> i in b || (i == last && pts[last].Diff() >= 5);
      CountStep(a, b, last, pts[last].Diff() >= 5);
    }
  }

  /** The second player's dominant-game count is the number of games they won by five points or more */
  lemma {:induction false} TallyCountsP2Dominant(pts: seq<Points>)
    ensures TallyGames(pts).p2Dominant == |P2DominantAt(pts)|
    decreases |pts|
  {
    if |pts| > 0 {
      var init := pts[..|pts| - 1];
      var last := |pts| - 1;
      TallyCountsP2Dominant(init);
      var a, b := P2DominantAt(pts), P2DominantAt(init);
      assert forall i :: 0 <= i < |init| ==> init[i] == pts[i];
      assert forall i :: i in a <==> i in b || (i == last && pts[last].Diff() <= -5);
      CountStep(a, b, last, pts[last].Diff() <= -5);
    }
  }

  function Swap(pts: seq<Points>): (r: seq<Points>)
    ensures |r| == |pts|
    ensures forall i :: 0 <= i < |pts| ==> r[i] == Points(pts[i].theirs, pts[i].mine)
  {
    seq(|pts|, i requires 0 <= i < |pts| => Points(pts[i].theirs, pts[i].mine))
  }

  /**
   * Asking for the pair the other way round exchanges the two players'
   * game wins, dominant games and margins, as long as no game is tied
   * (a tie is credited to whoever is asked for second).
   */
  lemma {:induction false} TallySwap(pts: seq<Points>)
    requires forall i :: 0 <= i < |pts| ==> pts[i].mine != pts[i].theirs
    ensures var t, u := TallyGames(pts), TallyGames(Swap(pts));
      && u.p1Wins == t.p2Wins && u.p2Wins == t.p1Wins
      && u.p1Dominant == t.p2Dominant && u.p2Dominant == t.p1Dominant
      && u.p1MaxMargin == t.p2MaxMargin && u.p2MaxMargin == t.p1MaxMargin
      && u.close == t.close
    decreases |pts|
  {
    if |pts| > 0 {
      var init := pts[..|pts| - 1];
      TallySwap(init);
      var w := Swap(pts);
      assert w[..|w| - 1] == Swap(init);
      assert w[|w| - 1].Diff() == -pts[|pts| - 1].Diff();
    }
  }

  /** `min(5, total_matches)`: how many of the most recent matches the form guide covers */
  function RecentTotal(totalMatches: nat): (n: nat)
    ensures n <= 5 && n <= totalMatches
    ensures n == 5 || n == totalMatches
  {
    if totalMatches < 5 then totalMatches else 5
  }

  // ---------------------------------------------------------------------
  // Match creation
  // ---------------------------------------------------------------------

  datatype CreateError = SamePlayer | NoProfile | NotParticipant | MustBePlayerOne

  /**
   * `MatchCreateView.form_valid` for a logged-in user: the two players must
   * differ; a user who is not staff must have a player, must be one of the
   * two, and must be player 1. Only `is_staff` exempts a user here.
   */
  function CheckMatchCreate(user: User, p1: PlayerId, p2: PlayerId): (r: Option<CreateError>)
    requires user.Member?
    ensures r.None? <==> p1 != p2 && (user.isStaff || user.player == Some(p1))
    ensures r == Some(SamePlayer) <==> p1 == p2
    ensures r == Some(NoProfile) <==> p1 != p2 && !user.isStaff && user.player.None?
    ensures r == Some(NotParticipant) <==> p1 != p2 && !user.isStaff && user.player.Some? && user.player.value != p1 && user.player.value != p2
  {
    if p1 == p2 then Some(SamePlayer)
    else if user.isStaff then None
    else match user.player
      case None => Some(NoProfile)
      case Some(me) =>
        if p1 != me && p2 != me then Some(NotParticipant)
        else if p1 != me then Some(MustBePlayerOne)
        else None
  }
}

=== FILE: text.dfy ===
/**
 * Decimal rendering of natural numbers, as Python's `str(n)` and f-string
 * interpolation produce it for non-negative integers, together with the
 * parser that inverts it. Cache keys, e-mail score lines and admin labels
 * are all built from these.
 */
module Text {

  predicate IsDigit(c: char) {
    '0' <= c <= '9'
  }

  predicate AllDigits(s: string) {
    forall i :: 0 <= i < |s| ==> IsDigit(s[i])
  }

  function DigitChar(d: nat): (c: char)
    requires d < 10
    ensures IsDigit(c)
    ensures (c as int) - ('0' as int) == d
  {
    (('0' as int) + d) as char
  }

  function DigitValue(c: char): (d: nat)
    requires IsDigit(c)
    ensures d < 10
  {
    (c as int) - ('0' as int)
  }

  /** `str(n)` for a non-negative Python integer: shortest decimal, no sign */
  function NatToString(n: nat): (s: string)
    ensures |s| >= 1
    ensures AllDigits(s)
    ensures s[0] == '0' ==> n == 0
    decreases n
  {
    if n < 10 then [DigitChar(n)]
    else NatToString(n / 10) + [DigitChar(n % 10)]
  }

  /** Reads a string of decimal digits back as a number */
  function ParseNat(s: string): (n: nat)
    requires AllDigits(s)
    decreases |s|
  {
    if |s| == 0 then 0
    else 10 * ParseNat(s[..|s| - 1]) + DigitValue(s[|s| - 1])
  }

  /** Parsing the rendering of `n` gives `n` back */
  lemma {:induction false} ParseNatToString(n: nat)
    ensures ParseNat(NatToString(n)) == n
    decreases n
  {
    var s := NatToString(n);
    if n < 10 {
      assert s[..|s| - 1] == [];
    } else {
      ParseNatToString(n / 10);
      assert s[..|s| - 1] == NatToString(n / 10);
    }
  }

  /** Distinct numbers render to distinct strings */
  lemma NatToStringInjective(a: nat, b: nat)
    requires NatToString(a) == NatToString(b)
    ensures a == b
  {
    ParseNatToString(a);
    ParseNatToString(b);
  }

  /** A fixed prefix followed by a number determines the number */
  lemma PrefixedNatInjective(prefix: string, a: nat, b: nat)
    requires prefix + NatToString(a) == prefix + NatToString(b)
    ensures a == b
  {
    var x := prefix + NatToString(a);
    assert NatToString(a) == x[|prefix|..];
    assert NatToString(b) == x[|prefix|..];
    NatToStringInjective(a, b);
  }

  /** `str(i)` for any Python integer: a minus sign before the digits of a negative number */
  function IntToString(i: int): (s: string)
    ensures |s| >= 1
    ensures s[0] == '-' <==> i < 0
    ensures s[0] == '-' || IsDigit(s[0])
  {
    if i < 0 then "-" + NatToString(-i) else NatToString(i)
  }

  /** Distinct integers render to distinct strings */
  lemma IntToStringInjective(a: int, b: int)
    requires IntToString(a) == IntToString(b)
    ensures a == b
  {
    if a < 0 {
      PrefixedNatInjective("-", -a, -b);
    } else {
      NatToStringInjective(a, b);
    }
  }

  /** Two digit strings joined by a non-digit separator split back uniquely */
  lemma SplitAtSeparator(x: string, y: string, u: string, v: string, sep: char)
    requires !IsDigit(sep)
    requires AllDigits(x) && AllDigits(u)
    requires x + [sep] + y == u + [sep] + v
    ensures x == u && y == v
  {
    var s := x + [sep] + y;
    assert |x| == |u| by {
      assert s[|x|] == sep && s[|u|] == sep;
      assert forall i :: 0 <= i < |x| ==> s[i] == x[i] && s[i] != sep;
      assert forall i :: 0 <= i < |u| ==> s[i] == u[i] && s[i] != sep;
    }
    assert x == s[..|x|] == u;
    assert y == s[|x| + 1..] == v;
  }

  /** The one-letter plural suffix used by the admin labels: empty for exactly one */
  function PluralS(n: int): (s: string)
    ensures s == "" <==> n == 1
  {
    if n != 1 then "s" else ""
  }
}

=== FILE: visibility.dfy ===
/**
 * Row-level visibility (managers.py): which matches a user may see, which
 * player profiles a user may edit, and which games a user may see. The user
 * of the request is passed explicitly; `None` stands for "no user in
 * context", as in management commands.
 */
module Visibility {
  import opened Wrappers
  import opened Domain

  // ---------------------------------------------------------------------
  // Matches
  // ---------------------------------------------------------------------

  /**
   * `MatchManager.visible_to`, one match at a time: nobody without an
   * authenticated user, everything for staff and superusers, nothing for a
   * user without a player, and otherwise the matches the player is on
   * either side of.
   */
  function MatchVisible(user: Option<User>, m: Match): (b: bool)
    ensures user.None? || user == Some(Anonymous) ==> !b
    ensures user.Some? && user.value.Privileged() ==> b
    ensures user.Some? && user.value.Member? && !user.value.Privileged() ==>
      (b <==> user.value.player.Some? && m.Involves(user.value.player.value))
  {
    match user
    case None => false
    case Some(u) =>
      if !u.Authenticated() then false
      else if u.isStaff || u.isSuperuser then true
      else match u.player
        case None => false
        case Some(p) => m.side1.Has(p) || m.side2.Has(p)
  }

  /** The queryset: a subset of all matches, filtered by `MatchVisible` */
  function VisibleMatches(user: Option<User>, ms: set<Match>): (r: set<Match>)
    ensures r <= ms
    ensures forall m :: m in r <==> m in ms && MatchVisible(user, m)
  {
    set m | m in ms && MatchVisible(user, m)
  }

  /** A staff user or superuser sees every match any user can see */
  lemma PrivilegedSeesSuperset(staff: User, user: Option<User>, ms: set<Match>)
    requires staff.Privileged()
    ensures VisibleMatches(user, ms) <= VisibleMatches(Some(staff), ms)
    ensures VisibleMatches(Some(staff), ms) == ms
  {
  }

  /** A regular user sees a match exactly when their player is on one of its rosters */
  lemma RegularUserSeesOwnMatches(u: User, p: PlayerId, ms: set<Match>)
    requires u.Member? && !u.Privileged() && u.player == Some(p)
    ensures forall m :: m in VisibleMatches(Some(u), ms) <==> m in ms && (m.side1.Has(p) || m.side2.Has(p))
  {
  }

  // ---------------------------------------------------------------------
  // Players
  // ---------------------------------------------------------------------

  /** The player's profile is linked to the user's account */
  predicate OwnedBy(players: Roster, p: PlayerId, id: UserId) {
    p in players && players[p].account.Some? && players[p].account.value.user == id
  }

  /**
   * `PlayerManager.editable_by`: nothing without an authenticated user,
   * every player for staff and superusers, otherwise the players whose
   * account is the user's.
   */
  function EditablePlayers(user: Option<User>, players: Roster): (r: set<PlayerId>)
    ensures r <= players.Keys
    ensures user.None? || user == Some(Anonymous) ==> r == {}
    ensures user.Some? && user.value.Privileged() ==> r == players.Keys
    ensures user.Some? && user.value.Member? && !user.value.Privileged() ==>
      forall p :: p in r <==> OwnedBy(players, p, user.value.id)
  {
    match user
    case None => {}
    case Some(u) =>
      if !u.Authenticated() then {}
      else if u.isStaff || u.isSuperuser then players.Keys
      else set p | p in players && players[p].account.Some? && players[p].account.value.user == u.id
  }

  /** A regular user can edit at most one profile when accounts are linked to one player each */
  lemma RegularUserEditsOwnProfileOnly(u: User, players: Roster)
    requires u.Member? && !u.Privileged()
    requires forall p, q :: OwnedBy(players, p, u.id) && OwnedBy(players, q, u.id) ==> p == q
    ensures |EditablePlayers(Some(u), players)| <= 1
  {
    var r := EditablePlayers(Some(u), players);
    if r != {} {
      var p :| p in r;
      assert r == {p};
    }
  }

  // ---------------------------------------------------------------------
  // Games
  // ---------------------------------------------------------------------

  /**
   * `GameManager.visible_to` for the games of match `m`. Unlike the match
   * manager it reads `is_authenticated` without checking for a missing
   * user, which raises (the `None` result). A regular user sees the games
   * only when their player is on BOTH sides of the match.
   */
  function GamesVisible(user: Option<User>, m: Match): (r: Option<bool>)
    ensures r.None? <==> user.None?
    ensures user == Some(Anonymous) ==> r == Some(false)
    ensures user.Some? && user.value.Privileged() ==> r == Some(true)
    ensures user.Some? && user.value.Member? && !user.value.Privileged() ==>
      (r == Some(true) <==> user.value.player.Some? && m.side1.Has(user.value.player.value) && m.side2.Has(user.value.player.value))
  {
    match user
    case None => None
    case Some(u) =>
      if !u.Authenticated() then Some(false)
      else if u.isStaff || u.isSuperuser then Some(true)
      else match u.player
        case None => Some(false)
        case Some(p) => Some(m.side1.Has(p) && m.side2.Has(p))
  }

  /** Games are only ever visible inside a visible match */
  lemma VisibleGamesHaveVisibleMatch(user: Option<User>, m: Match)
    requires GamesVisible(user, m) == Some(true)
    ensures MatchVisible(user, m)
  {
  }

  /**
   * The game rule is stricter than the match rule: a regular player of a
   * match with disjoint rosters sees the match but none of its games.
   */
  lemma DisjointRostersHideGames(u: User, m: Match)
    requires u.Member? && !u.Privileged() && u.player.Some?
    requires m.side1.Has(u.player.value)
    requires forall q :: m.side1.Has(q) ==> !m.side2.Has(q)
    ensures MatchVisible(Some(u), m)
    ensures GamesVisible(Some(u), m) == Some(false)
  {
  }
}

=== FILE: wrappers.dfy ===
/** The Option datatype used throughout the model in place of Python's `None`. */
module Wrappers {

  datatype Option<+T> = None | Some(value: T) {

    /** Returns the value carried by Some, or `default` when None */
    function GetOr(default: T): T {
      match this
      case Some(v) => v
      case None => default
    }
  }
}
